=== FILE: README.md ===
# Dairy admin dashboard — record-collection model

This project is a Dafny model of the record-keeping logic in a React admin dashboard for a dairy shop. It covers the panels for:

- orders (and the delivery boys kept beside them)
- delivery boys
- categories
- stores, gift cards and coupons
- users
- payments
- the dashboard statistics and search; the search handlers are defined, but no element of the rendered page calls them, so the search is unreachable from the page
- products
- the change-password page and the profile page

Each panel keeps a list of records in component state, browser storage or on the server. All of them use a small set of operations:

- **Replace by id.** `map`, where the record with the edited id takes the form's fields and keeps its id and its own counters.
- **Append a new record.** A spread that adds a record with a fresh id.
- **Delete by id.** `filter`.
- **Show ten per page.** `slice`, with Previous/Next buttons that clamp the page.
- **Export as CSV.** `map`/`join`.

Each change happens only after a confirmation dialog.

How the model is built:

- Every component is one module. Its state is a class whose fields are the component's state variables.
- The pure list transforms are functions, shared where the panels share them (modules `Collections`, `Paging` and `Text`).
- Dialog answers, server outcomes, `Date.now()` ids and dates are parameters of the handlers.

What the proofs establish, besides each handler's exact new state:

- Delete removes exactly the given id and keeps the others in order.
- Editing a record and saving the form untouched changes nothing.
- Ids stay unique.
- Category product totals are kept.
- Each CSV export reads back line by line and cell by cell into the records' fields. The one exception is the delivery-boy export, which is a single line.
- The pages partition the list.
- The page buttons keep the page in range.
- The payments list is the stored list reversed.
- The dashboard's payments figure equals the Payments panel's total. The other dashboard figures come from the dashboard's own data and constants, not from the other panels.
- The password validators check their fields in a fixed order.

The page count follows the code. For an empty list, `Math.ceil(0 / 10)` is 0, so the code reports zero pages, not at least one. `Paging.TotalPages` gives 0 there as well.

## Model

| member | source | states |
|---|---|---|
| Collections.Filter | src/components/Orders.jsx:124 | `filter` keeps only elements satisfying the test, never more of any element than the input holds, and is never longer |
| Collections.FilterMember | src/components/Orders.jsx:124 | an element survives a filter exactly when it was in the list and passes the test |
| Collections.Find | src/components/Store.jsx:173 | `find` returns nothing exactly when no element matches, else the first matching element |
| Collections.MapReplace | src/components/Orders.jsx:75-79 | the replace-by-id `map` keeps the length and replaces exactly the hit elements |
| Collections.MapReplaceKeepsSum | src/components/Category.jsx:37 | replacing elements by one with the same counter keeps the sum of that counter |
| Collections.SumByReverse | src/components/Payment.jsx:72 | a `reduce` sum is the same over the reversed list |
| Collections.Reverse | src/components/Payment.jsx:15 | `reverse` puts element i at position n-1-i |
| Collections.ReverseInPlace | src/components/Payment.jsx:15 | the in-place array reversal leaves the reverse of the old contents |
| Collections.FilterReverse | src/components/Payment.jsx:59-60 | filtering the reversed list equals reversing the filtered list |
| Collections.CountSplit | src/components/Dashboard.jsx:154-156 | when every element passes exactly one of two tests, the two filter counts add up to the length |
| Collections.FilterKeepsUnique | src/components/Orders.jsx:124 | a filter keeps ids unique |
| Collections.MapReplaceKeepsUnique | src/components/Orders.jsx:75-79 | replace-by-id with a record of the same id keeps ids unique |
| Paging.TotalPages | src/components/Orders.jsx:312 | `Math.ceil(n / 10)`: enough pages for n records, none spare, zero exactly when n is 0 |
| Paging.JsSlice | src/components/Orders.jsx:314 | JavaScript `slice` clamps its bounds to the list and is empty past its end |
| Paging.PageOf | src/components/Orders.jsx:313-314 | a page holds at most ten records, the (page-1)*10-th onwards; page 0 is empty |
| Paging.PageNonEmpty | src/components/Orders.jsx:312-314 | a page shows records exactly when it lies between 1 and the page count |
| Paging.RecordOnItsPage | src/components/Orders.jsx:312-314 | record i appears on page i/10+1, at position i%10, and that page is in range |
| Paging.PagesUpToPrefix | src/components/Orders.jsx:313-314 | the first k pages together are the first 10k records |
| Paging.PagesPartition | src/components/Orders.jsx:312-314 | all pages together, in order, are exactly the list |
| Paging.PreviousPage | src/components/Orders.jsx:516 | Previous goes back one page but never below 1 |
| Paging.NextOnEmptyListLeavesPageZero | src/components/Orders.jsx:528 | as written, Next on an empty list sets page 0, which shows nothing |
| Paging.NextPageAsWritten | src/components/Orders.jsx:528 | Next as written moves one page on, never past the page count, so with no pages it gives 0 |
| Paging.NextPage | src/components/Orders.jsx:528 | Next as intended advances one page, stops at the last page, and never goes below 1 |
| Paging.NextAsWrittenInRange | src/components/Orders.jsx:528 | when the list has records, Next as written keeps a page in range and agrees with the intended rule |
| Paging.ButtonsKeepPageInRange | src/components/Orders.jsx:516-528 | from a page in range, both buttons stay in range |
| Text.Split | src/components/Orders.jsx:297-300 | reading a line at a delimiter always gives at least one piece |
| Text.SplitJoin | src/components/Orders.jsx:297-300 | splitting a comma-join of delimiter-free cells gives back the cells |
| Text.SplitCount | src/components/Orders.jsx:297-300 | a text read at a delimiter gives one more piece than it has delimiters |
| Text.CsvDocumentLines | src/components/Orders.jsx:297-300 | a header and line-free rows joined by line breaks read back as the header then the rows; no rows leaves an empty last line |
| Text.IntToString | src/components/Orders.jsx:300 | a number's decimal text: digits, leading minus exactly for negatives |
| Text.IntToStringInjective | src/components/Orders.jsx:300 | two numbers have the same text exactly when they are equal |
| Text.CsvTableReadsBack | src/components/Orders.jsx:297-300 | an export of safe cells has one line per row plus the header, each reading back to its cells |
| Orders.UpdateOrders | src/components/Orders.jsx:75-79 | the edited order takes the form fields and keeps its id and date; the others are untouched |
| Orders.CreateOrder | src/components/Orders.jsx:83-88 | a create appends one order with the new id, today's date and the form fields |
| Orders.DeleteOrder | src/components/Orders.jsx:124 | a delete leaves no order with the id and keeps every other order |
| Orders.DeleteMissingIdIsNoOp | src/components/Orders.jsx:124 | deleting an id no order has leaves the list as it was |
| Orders.DeleteKeepsOrder | src/components/Orders.jsx:124 | deleting works piecewise over a split list, so the survivors keep their order |
| Orders.OrderIdsStayUnique | src/components/Orders.jsx:72-91 | update, delete, and create with a fresh id keep order ids unique |
| Orders.EditForm | src/components/Orders.jsx:96-109 | the edit form copies the order's fields with the amount turned into its text |
| Orders.InsertNewestFirst | src/components/Orders.jsx:138 | inserting into the history adds exactly that one order |
| Orders.InsertKeepsNewestFirst | src/components/Orders.jsx:138 | inserting into a newest-first list keeps it newest first |
| Orders.SortNewestFirst | src/components/Orders.jsx:138 | the date sort is a permutation of its input |
| Orders.SortIsNewestFirst | src/components/Orders.jsx:138 | the date sort puts later dates first |
| Orders.CustomerHistoryIsThatCustomersOrders | src/components/Orders.jsx:137-138 | the history is newest first and holds exactly the selected customer's orders, each as often as in the list |
| Orders.OrdersCsvReadsBack | src/components/Orders.jsx:297-300 | the order export reads back to the column names and each order's nine cells |
| Orders.OrderCsvCells | src/components/Orders.jsx:300 | an order's line has exactly one cell per export column |
| Orders.OrdersCsvRows | src/components/Orders.jsx:300 | one row of cells per order, in list order |
| Orders.EmptyOrdersCsv | src/components/Orders.jsx:299-300 | an empty order list exports the header and a trailing line break |
| Orders.EditThenSaveKeepsCsv | src/components/Orders.jsx:96-109 | editing an order and saving untouched leaves every export line the same, though the amount is now text |
| Orders.UpdateRiders | src/components/Orders.jsx:239-243 | the edited delivery boy takes the form fields and keeps its id and order count |
| Orders.CreateRider | src/components/Orders.jsx:247-252 | a new delivery boy is appended with the new id and 0 orders |
| Orders.DeleteRider | src/components/Orders.jsx:283 | deleting leaves no delivery boy with the id and keeps the others |
| Orders.EditRiderForm | src/components/Orders.jsx:260-268 | the delivery form copies the name, phone and status |
| Orders.OrdersPanel.constructor | src/components/Orders.jsx:9-53 | the panel starts with the sample orders and delivery boys, blank forms and page 1 |
| Orders.OrdersPanel.HandleSubmit | src/components/Orders.jsx:58-93 | unconfirmed: nothing changes; confirmed: update or create, then the form is reset |
| Orders.OrdersPanel.HandleEdit | src/components/Orders.jsx:96-109 | editing fills the form from the order and opens it |
| Orders.OrdersPanel.ShowAddForm | src/components/Orders.jsx:324 | the "Add New Order" button opens the form and changes nothing else |
| Orders.OrdersPanel.HandleDelete | src/components/Orders.jsx:112-127 | a confirmed delete removes the id; otherwise nothing changes |
| Orders.OrdersPanel.ResetForm | src/components/Orders.jsx:215-219 | the form is blank (quantity 1, status 'pending'), no edit, form hidden |
| Orders.OrdersPanel.HandleDeliverySubmit | src/components/Orders.jsx:223-257 | unconfirmed: nothing changes; confirmed: update or create the delivery boy, then reset the delivery form |
| Orders.OrdersPanel.HandleEditDeliveryBoy | src/components/Orders.jsx:260-268 | the delivery form is filled from the delivery boy and opened |
| Orders.OrdersPanel.HandleDeleteDeliveryBoy | src/components/Orders.jsx:271-286 | a confirmed delete removes the delivery boy; otherwise nothing changes |
| Orders.OrdersPanel.ResetDeliveryForm | src/components/Orders.jsx:289-293 | the delivery form is blank with status 'active', no edit, hidden |
| Orders.OrdersPanel.PreviousPage | src/components/Orders.jsx:516 | the page moves back by the clamped rule |
| Orders.OrdersPanel.NextPage | src/components/Orders.jsx:528 | Next as written: one page on, capped at the order page count, so an empty list moves to page 0 |
| DeliveryBoys.UpdateBoys | src/components/DeliveryBoy.jsx:41-45 | the edited delivery boy takes the form fields, keeping id and order count; the others are untouched |
| DeliveryBoys.CreateBoy | src/components/DeliveryBoy.jsx:48-53 | a create appends the form as a new delivery boy with the new id and 0 orders |
| DeliveryBoys.DeleteBoy | src/components/DeliveryBoy.jsx:85 | deleting leaves no delivery boy with the id and keeps the others |
| DeliveryBoys.DeleteKeepsOrder | src/components/DeliveryBoy.jsx:85 | deleting is piecewise over a split list, and an absent id changes nothing |
| DeliveryBoys.EditForm | src/components/DeliveryBoy.jsx:60-71 | the form copies name, phone, password, city, status and photo |
| DeliveryBoys.EditThenSaveIsNoOp | src/components/DeliveryBoy.jsx:41-45 | editing a delivery boy and saving untouched leaves the list unchanged |
| DeliveryBoys.CsvIsOneLine | src/components/DeliveryBoy.jsx:128-131 | the export's separator is a backslash and an n, so the whole export is one line |
| DeliveryBoys.DeliveryBoyPanel.constructor | src/components/DeliveryBoy.jsx:7-23 | starts with the three sample delivery boys, a blank form and page 1 |
| DeliveryBoys.DeliveryBoyPanel.HandleSubmit | src/components/DeliveryBoy.jsx:26-58 | unconfirmed: nothing changes; confirmed: update or create, then reset |
| DeliveryBoys.DeliveryBoyPanel.HandleEdit | src/components/DeliveryBoy.jsx:60-71 | the form is filled from the delivery boy and shown |
| DeliveryBoys.DeliveryBoyPanel.ShowAddForm | src/components/DeliveryBoy.jsx:154 | the "Add New Delivery Boy" button opens the form and changes nothing else |
| DeliveryBoys.DeliveryBoyPanel.HandleDelete | src/components/DeliveryBoy.jsx:73-88 | a confirmed delete removes the id; otherwise nothing changes |
| DeliveryBoys.DeliveryBoyPanel.ImageLoaded | src/components/DeliveryBoy.jsx:111-120 | the loaded photo replaces the form's image and nothing else |
| DeliveryBoys.DeliveryBoyPanel.ResetForm | src/components/DeliveryBoy.jsx:122-126 | the form is blank with status 'active' and no photo, no edit, hidden |
| DeliveryBoys.DeliveryBoyPanel.PreviousPage | src/components/DeliveryBoy.jsx:323 | the page moves back by the clamped rule |
| DeliveryBoys.DeliveryBoyPanel.NextPage | src/components/DeliveryBoy.jsx:335 | Next as written: one page on, capped at the page count, so an empty list moves to page 0 |
| Categories.UpdateCategories | src/components/Category.jsx:37 | the edited category takes the form's name and description, keeping id and product count |
| Categories.CreateCategory | src/components/Category.jsx:40 | a create appends a category with the new id and 0 products |
| Categories.DeleteCategory | src/components/Category.jsx:69 | deleting leaves no category with the id and keeps the others |
| Categories.DeleteKeepsOrder | src/components/Category.jsx:69 | deleting is piecewise over a split list, so survivors keep their order |
| Categories.ProductTotalKept | src/components/Category.jsx:37-40 | update and create leave the total product count unchanged |
| Categories.EditForm | src/components/Category.jsx:48-55 | the form copies the name and description |
| Categories.EditThenSaveIsNoOp | src/components/Category.jsx:37 | editing and saving untouched leaves the list unchanged |
| Categories.CategoryPanel.constructor | src/components/Category.jsx:7-20 | starts with the six sample categories and a blank form |
| Categories.CategoryPanel.HandleSubmit | src/components/Category.jsx:22-46 | unconfirmed: nothing changes; confirmed: update or create, then reset |
| Categories.CategoryPanel.HandleEdit | src/components/Category.jsx:48-55 | the form is filled from the category and shown |
| Categories.CategoryPanel.ShowAddForm | src/components/Category.jsx:87 | the "Add New Category" button opens the form and changes nothing else |
| Categories.CategoryPanel.HandleDelete | src/components/Category.jsx:57-72 | a confirmed delete removes the id; otherwise nothing changes |
| Categories.CategoryPanel.ResetForm | src/components/Category.jsx:74-81 | the form is blank, no edit, hidden |
| Stores.GiftCardRecord | src/components/Store.jsx:60-62 | an updated gift card is the form plus the kept id and `usedBy` |
| Stores.PlainRecord | src/components/Store.jsx:71-73 | an updated coupon or store is the form plus the kept id |
| Stores.UpdateById | src/components/Store.jsx:60-62 | the record with the id is replaced; the others are untouched |
| Stores.DeleteById | src/components/Store.jsx:142-146 | deleting leaves no record with the id and keeps the others |
| Stores.DeleteKeepsOrder | src/components/Store.jsx:142-146 | deleting is piecewise over a split list |
| Stores.SubmitGiftCard | src/components/Store.jsx:58-68 | update keeps id and `usedBy`; create appends the form with the new id and `usedBy: null` |
| Stores.SubmitPlain | src/components/Store.jsx:69-90 | update keeps the id; create appends the form with the new id |
| Stores.EditForm | src/components/Store.jsx:98-127 | the edit form holds exactly the tab's fields, with numbers turned into text where the code calls `toString` |
| Stores.EditedStoreHoldsOnlyStoreFields | src/components/Store.jsx:117-125 | an edited and saved store holds only the store fields and its id, so no `code` |
| Stores.EditedGiftCardHoldsOnlyGiftCardFields | src/components/Store.jsx:100-106 | an edited and saved gift card holds only its fields, id and `usedBy`, so no `discount` |
| Stores.EditedCouponHoldsOnlyCouponFields | src/components/Store.jsx:107-116 | an edited and saved coupon holds only its fields and id, so no `amount` |
| Stores.CreatedRecordsHoldAllFields | src/components/Store.jsx:29-42 | a created record carries all twelve form fields, e.g. `code: ''` |
| Stores.TextStoreIdShowsAllStores | src/components/Store.jsx:172-175 | as written, a text store id never matches a numeric store id, so the name shows 'All Stores' |
| Stores.EditedCouponLosesItsStore | src/components/Store.jsx:98-127 | as written, the first sample coupon shows 'Main Store' before an edit and 'All Stores' after saving it untouched |
| Stores.StoreNameAgreesAndSurvivesEdit | src/components/Store.jsx:172-175 | the corrected lookup agrees with the original on numeric ids and gives the same name before and after an edit |
| Stores.ActiveStoresExactly | src/components/Store.jsx:322 | the store picker lists exactly the stores with status 'active' |
| Stores.ActiveStores | src/components/Store.jsx:322 | every store offered in the picker is active |
| Stores.StoreNameAsWritten | src/components/Store.jsx:172-175 | the name of the first store whose id is strictly equal to the coupon's store id, else 'All Stores' |
| Stores.StorePanel.StoreNameOf | src/components/Store.jsx:442 | a coupon row's store column uses the strict lookup: the first strictly matching store's name, else 'All Stores' |
| Stores.StorePanel.constructor | src/components/Store.jsx:7-42 | starts on the stores tab with the sample lists and the blank form |
| Stores.StorePanel.SelectTab | src/components/Store.jsx:187-201 | a tab button selects its tab |
| Stores.StorePanel.HandleSubmit | src/components/Store.jsx:44-96 | the confirmed save changes only the active tab's list, then resets the form |
| Stores.StorePanel.HandleEdit | src/components/Store.jsx:98-127 | the form becomes the tab's edit form for the item and is shown |
| Stores.StorePanel.ShowAddForm | src/components/Store.jsx:181 | the active tab's "Add New" button opens the form and changes nothing else |
| Stores.StorePanel.HandleDelete | src/components/Store.jsx:129-151 | a confirmed delete removes the id from the active tab's list only |
| Stores.StorePanel.ResetForm | src/components/Store.jsx:153-170 | the form is the twelve-field blank, no edit, hidden |
| Users.SaveRequest | src/components/Users.jsx:133-137 | the save is a PUT to the edited user's id when editing, else a POST, carrying the form |
| Users.ChooseUsers | src/components/Users.jsx:103-116 | the server list when non-empty; otherwise, or on failure, the eight sample users |
| Users.Toggle | src/components/Users.jsx:186 | the new status is 'inactive' exactly for an active user, else 'active' |
| Users.ToggleTwice | src/components/Users.jsx:186 | toggling twice restores 'active' or 'inactive' |
| Users.SetStatus | src/components/Users.jsx:202-205 | the user with the id takes the status; every other user is unchanged |
| Users.BlockThenUnblockRestores | src/components/Users.jsx:185-217 | blocking then unblocking a user gives back the same list |
| Users.EditForm | src/components/Users.jsx:150-159 | the form copies the user's fields, with a missing mobile as '' |
| Users.UserCsvCells | src/components/Users.jsx:227 | a user's line has one cell per export column |
| Users.UsersCsvReadsBack | src/components/Users.jsx:224-227 | the export reads back to the header and each user's name, email, role, status and date |
| Users.UsersPanel.constructor | src/components/Users.jsx:10-97 | the list starts empty and loading, with a blank form |
| Users.UsersPanel.FetchUsers | src/components/Users.jsx:103-116 | the list becomes the chosen users and loading ends |
| Users.UsersPanel.Notify | src/components/Users.jsx:140 | the change listener is called once when present |
| Users.UsersPanel.HandleSubmit | src/components/Users.jsx:118-148 | confirmed: the save request is sent; on success the list is reloaded, the listener told, the form reset; otherwise no change |
| Users.UsersPanel.HandleEdit | src/components/Users.jsx:150-159 | the form is filled from the user |
| Users.UsersPanel.HandleDelete | src/components/Users.jsx:161-183 | confirmed: a DELETE is sent; on success the list is reloaded |
| Users.UsersPanel.HandleBlock | src/components/Users.jsx:185-217 | confirmed: the status flips locally first, the PUT is sent, and the listener is told whether or not it succeeds |
| Users.UsersPanel.ResetForm | src/components/Users.jsx:219-222 | the form is blank with role 'user' and status 'active', no edit |
| Users.UsersPanel.PreviousPage | src/components/Users.jsx:315 | the page moves back by the clamped rule |
| Users.UsersPanel.NextPage | src/components/Users.jsx:327 | Next as written: one page on, capped at the page count (the loaded list is never empty) |
| Payments.PaymentPanel.constructor | src/components/Payment.jsx:6-7 | the panel starts with the stored payments, an empty list on screen and no notifications |
| Payments.PaymentPanel.LoadPaymentHistory | src/components/Payment.jsx:13-16 | the shown list is the stored list reversed in place, latest first |
| Payments.PaymentPanel.DeletePayment | src/components/Payment.jsx:47-69 | confirmed: storage becomes the stored list without the id, in stored order; the screen shows it latest first; listener and event are notified |
| Payments.PaymentPanel.TotalIsStoredTotal | src/components/Payment.jsx:71-73 | the shown total is the total of everything stored |
| Payments.DeleteRemovesExactlyThatId | src/components/Payment.jsx:59 | a payment survives a delete exactly when its id differs |
| Payments.DeleteMissingIdKeepsStorage | src/components/Payment.jsx:59-60 | deleting an absent id writes the stored list back unchanged |
| Dashboard.ChooseStores | src/components/Dashboard.jsx:112-119 | the stored stores when there are any, else the three defaults; never empty |
| Dashboard.ChooseStoresIdempotent | src/components/Dashboard.jsx:119-125 | once the defaults are written, the next fetch chooses the same stores |
| Dashboard.ActivePlusInactiveIsTotal | src/components/Dashboard.jsx:154-156 | when every user is active or inactive, the two counts add up to the users count |
| Dashboard.SampleActiveCount | src/components/Dashboard.jsx:143-155 | six of the sample users are active |
| Dashboard.SampleInactiveCount | src/components/Dashboard.jsx:143-156 | two of the sample users are inactive |
| Dashboard.SampleUserCards | src/components/Dashboard.jsx:154-156 | with the sample users the figures are 8 users, 6 active and 2 inactive (the inactive count is computed but displayed nowhere; its only reader, the chart, is commented out) |
| Dashboard.Figures | src/components/Dashboard.jsx:135-140 | the users and stores figures are the list lengths; the active and inactive counts never exceed the users count |
| Dashboard.SuccessStats | src/components/Dashboard.jsx:162-175 | after the server payload is spread, the browser's figures override it; only `totalAdmins` is the server's |
| Dashboard.FailureStats | src/components/Dashboard.jsx:202-215 | on failure the same figures with `totalAdmins: 0` |
| Dashboard.BranchesDifferOnlyInAdmins | src/components/Dashboard.jsx:162-215 | whatever the server sends, the two branches differ only in the admins figure |
| Dashboard.PaymentCardMatchesPaymentPanel | src/components/Dashboard.jsx:135-136 | the payments figure equals the Payments panel's total |
| Dashboard.Shown | src/components/Dashboard.jsx:321-403 | `stats.key \|\| fallback`: the fallback exactly when the value is missing, 0 or the fallback itself |
| Dashboard.StoreCardsShowFigures | src/components/Dashboard.jsx:376-385 | the stores card always shows the real count; the revenue card shows 45000 only for a sum of 0 or 45000 |
| Dashboard.FixedCards | src/components/Dashboard.jsx:340-403 | the orders, products, delivery-boys and categories cards show 25, 15, 8 and 6 in both branches; the admins figure, which no card displays, is the server's or 0 |
| Dashboard.PageFor | src/components/Dashboard.jsx:267-274 | user, order and product results open their pages; other types keep the page |
| Dashboard.DashboardPanel.constructor | src/components/Dashboard.jsx:77-80 | starts on the dashboard page with empty stats and search |
| Dashboard.DashboardPanel.FetchStores | src/components/Dashboard.jsx:110-128 | returns and shows the chosen stores; writes the defaults to storage only when it was empty |
| Dashboard.DashboardPanel.FetchDashboardStats | src/components/Dashboard.jsx:130-217 | stats are the success or failure figures over the stored payments and fetched stores |
| Dashboard.DashboardPanel.HandleSearch | src/components/Dashboard.jsx:244-259 | a term under 2 characters clears and hides results without a request; a failed search clears results |
| Dashboard.DashboardPanel.HandleSearchChange | src/components/Dashboard.jsx:261-265 | the typed text is kept and searched |
| Dashboard.DashboardPanel.HandleResultClick | src/components/Dashboard.jsx:267-277 | opens the result's page, clears the term and hides results |
| Products.ChooseProducts | src/components/Products.jsx:30-45 | the server's list, even empty, or the three sample products on failure |
| Products.SaveRequest | src/components/Products.jsx:63-67 | an update of the edited product's id when editing, else a create, carrying the form |
| Products.ShownPrice | src/components/Products.jsx:395 | the offer is shown, and is lower, exactly when it is present, non-zero and below the price |
| Products.NoDiscountShowsPlainPrice | src/components/Products.jsx:395 | a missing, zero or not-lower offer shows the plain price |
| Products.EditForm | src/components/Products.jsx:82-96 | price and stock as text; a missing offer price, description or photo list as '' / [] |
| Products.EditFormKeepsNumbers | src/components/Products.jsx:86-88 | the edit form's price, stock and offer texts are equal exactly when the numbers are |
| Products.WithoutIndexRemovesOne | src/components/Products.jsx:181-184 | removing an index in range drops exactly that photo, in order; out of range keeps all |
| Products.WithoutIndex | src/components/Products.jsx:182 | filtering out one index never lengthens the photo list |
| Products.RemovalKeepsAtMostThree | src/components/Products.jsx:181-184 | removing keeps at most three photos and drops one when the index is in range |
| Products.ProductsCsvReadsBack | src/components/Products.jsx:186-189 | the export reads back to the header and each product's cells, a missing description as '' |
| Products.ProductCsvCells | src/components/Products.jsx:189 | a product's line has one cell per column, a missing description written as '' |
| Products.ProductsPanel.constructor | src/components/Products.jsx:8-23 | starts empty, not loading, with the blank form and page 1 |
| Products.ProductsPanel.FetchProducts | src/components/Products.jsx:30-45 | the list becomes the chosen products and loading ends |
| Products.ProductsPanel.HandleSubmit | src/components/Products.jsx:47-80 | confirmed: the request is sent; success reloads and resets, failure alerts and keeps the form; loading ends |
| Products.ProductsPanel.HandleEdit | src/components/Products.jsx:82-96 | the form is filled from the product and shown |
| Products.ProductsPanel.ShowAddForm | src/components/Products.jsx:212 | the "Add New Product" button opens the form and changes nothing else |
| Products.ProductsPanel.HandleDelete | src/components/Products.jsx:98-122 | confirmed: the delete is sent; success reloads, failure alerts |
| Products.ProductsPanel.ResetForm | src/components/Products.jsx:124-138 | the form is blank (category 'milk', unit 'liter', status 'available'), no edit, hidden |
| Products.ProductsPanel.HandleImageUpload | src/components/Products.jsx:140-179 | more than three files: refused with an alert; none: ignored; otherwise the photos replace the list in order |
| Products.ProductsPanel.RemoveImage | src/components/Products.jsx:181-184 | the photo list loses the given index and nothing else changes |
| Products.ProductsPanel.PreviousPage | src/components/Products.jsx:418 | the page moves back by the clamped rule |
| Products.ProductsPanel.NextPage | src/components/Products.jsx:430 | Next as written: one page on, capped at the page count, so an empty server list moves to page 0 |
| ChangePass.Validate | src/components/ChangePass.jsx:24-34 | no error exactly when the passwords match and are 6+ long; a mismatch is reported first |
| ChangePass.CurrentPasswordUnchecked | src/components/ChangePass.jsx:24-34 | the current password plays no part in the submit handler's validation (the form's `required` check is the browser's) |
| ChangePass.ChangePassPage.constructor | src/components/ChangePass.jsx:9-16 | blank fields, not loading, no message or error |
| ChangePass.ChangePassPage.HandleChange | src/components/ChangePass.jsx:108-128 | a keystroke replaces its field only |
| ChangePass.ChangePassPage.HandleSubmit | src/components/ChangePass.jsx:18-91 | errors cleared first; a failed check shows its error and sends nothing; confirmed sends; success clears the fields; loading ends false; every sent password is 6+ long |
| Profile.ProfileFrom | src/components/Profile.jsx:13-17 | name and email default to '', the role to 'admin' |
| Profile.RoleNeverEmpty | src/components/Profile.jsx:16 | the role shown is never empty |
| Profile.CheckPasswords | src/components/Profile.jsx:88-107 | empty field first, then mismatch, then length; a pass returns exactly the current and new passwords |
| Profile.DialogAgreesWithChangePassPage | src/components/Profile.jsx:88-107 | the dialog accepts exactly what the Change Password page's submit handler accepts plus a non-empty current password |
| Profile.ProfilePage.constructor | src/components/Profile.jsx:12-17 | not editing, profile data from the session user |
| Profile.ProfilePage.HandleEdit | src/components/Profile.jsx:19-21 | enters editing mode |
| Profile.ProfilePage.HandleCancel | src/components/Profile.jsx:23-30 | leaves editing and restores the session user's values |
| Profile.ProfilePage.HandleInputChange | src/components/Profile.jsx:55-61 | only the named field changes |
| Profile.ProfilePage.HandleSave | src/components/Profile.jsx:32-53 | confirmed: the profile is sent; editing ends only when confirmed and successful |
| Profile.ProfilePage.HandleChangePassword | src/components/Profile.jsx:63-122 | only entries `preConfirm` accepts are sent; a cancelled dialog sends nothing |

## Left out

- Network requests (the axios `API` and `productApi`) are not modelled. Each becomes a success flag and, for fetches, the data received.
- Server-side behaviour is not modelled. The `requests` fields record what is sent.
- Confirmation and result dialogs: only the answer (`confirmed`) and the alert titles and texts that carry logic are kept. The HTML detail views and the `window.selectOrder` global are presentation.
- Time and ids: `Date.now()` ids and `new Date()` dates are parameters. Nothing guarantees their uniqueness, so lemmas that need a fresh id take it as a precondition.
- `toLocaleDateString` in the users export is a parameter function `localDate`.
- Products `createdAt: new Date()` on the sample products is omitted.
- `FileReader` data-URL encoding is not modelled. The photo files are given as the texts they read to, with a flag for read failure.
- `encodeURI`, the `data:text/csv` prefix and the download link are not modelled. The exports are modelled as the CSV text itself.
- Browser storage is a sequence field. JSON parse and stringify are not modelled, and malformed JSON is not handled by the code.
- Asynchronous ordering: each handler runs to completion in one step. The un-awaited reloads in the Users and Products panels therefore land before the handler ends.
- Numbers are unbounded integers. Fractional prices, amounts and totals (floating point) are not modelled.
- `Number.prototype.toString` is modelled for integers only.
- The order quantity is the number `parseInt` gives for the typed text. The NaN that a cleared or non-numeric field gives is not modelled. The other form values stay text, as the code stores them.
- Store records are string-keyed maps of values. Nested objects are not modelled.
- Stores.StorePanel.HandleEdit and Stores.EditForm: require that the fields on which the code calls `toString` are present, because the code would throw on a missing one.
- Browser form checks are not modelled: the `required`, `pattern="[0-9]{10}"` and `type="email"` attributes on the ChangePass, Users, Products, Orders, Store, Category, DeliveryBoy and Profile forms keep some values from reaching the submit handlers. Each handler is modelled over every form value, so the model also covers inputs the browser would refuse (for example an empty current password on the Change Password page).
- Text lengths count characters. JavaScript counts UTF-16 code units, which differ only for characters outside the Basic Multilingual Plane.
- The Dashboard keeps only the statistic keys it displays or sets itself. Other keys in the server payload are dropped.
- The Dashboard's recent activities, chart data, theme, sidebar and the `storage`/`paymentUpdate` listeners that re-run the fetches are not modelled.
- Payments detail view, Profile logout, routing, login and the session context are not modelled.
- Rendering, icons, CSS and chart registration are not modelled.

## Findings

| source | as written | input that shows it | evidently intended | confidence | as-written member | corrected member |
|---|---|---|---|---|---|---|
| src/components/Orders.jsx:528 | Next sets `Math.min(page + 1, totalPages)`, and `totalPages` is 0 for an empty list | an empty list on page 1: Next moves to page 0 (the same in the Orders, Delivery Boys and Products panels; the loaded users list is never empty) | the page stays at 1 | not executed | Paging.NextOnEmptyListLeavesPageZero | Paging.NextPage |
| src/components/Store.jsx:172-175 | `getStoreName` compares with `===`, but `handleEdit` turns a coupon's `storeId` into text | the first sample coupon (store 1) edited and saved untouched shows 'All Stores' instead of 'Main Store' | the store name survives an edit | not executed | Stores.EditedCouponLosesItsStore | Stores.StoreNameAgreesAndSurvivesEdit |

=== FILE: category.dfy ===
/** The Categories panel (src/components/Category.jsx): categories with a
    name, a description and a products counter, changed after a confirmation
    dialog. */
module Categories {
  import opened Collections

  /** The form (`formData`): exactly name and description. */
  datatype CategoryForm = CategoryForm(name: string, description: string)

  /** A category: the form fields plus `id` and the `products` counter. */
  datatype Category = Category(id: int, products: int, fields: CategoryForm)

  const BlankForm := CategoryForm("", "")

  function CategoryId(c: Category): int { c.id }

  function ProductCount(c: Category): int { c.products }

  /** Update sets name and description from the form and keeps the edited
      category's id and `products` count; other categories are untouched. */
  function UpdateCategories(cs: seq<Category>, editing: Category, form: CategoryForm): (r: seq<Category>)
    ensures |r| == |cs|
    ensures forall i :: 0 <= i < |cs| && cs[i].id == editing.id ==>
      r[i].id == editing.id && r[i].products == editing.products && r[i].fields == form
    ensures forall i :: 0 <= i < |cs| && cs[i].id != editing.id ==> r[i] == cs[i]
  {
    MapReplace(cs, (c: Category) => c.id == editing.id, Category(editing.id, editing.products, form))
  }

  /** Create appends a category with the new id and `products: 0`. */
  function CreateCategory(cs: seq<Category>, form: CategoryForm, newId: int): (r: seq<Category>)
    ensures |r| == |cs| + 1 && r[..|cs|] == cs
    ensures r[|cs|].id == newId && r[|cs|].products == 0 && r[|cs|].fields == form
  {
    cs + [Category(newId, 0, form)]
  }

  /** Delete removes the categories with the id; the others stay, in order. */
  function DeleteCategory(cs: seq<Category>, id: int): (r: seq<Category>)
    ensures forall i :: 0 <= i < |r| ==> r[i].id != id
    ensures forall i :: 0 <= i < |cs| && cs[i].id != id ==> cs[i] in r
  {
    var r := Filter(cs, (c: Category) => c.id != id);
    forall i | 0 <= i < |cs| && cs[i].id != id ensures cs[i] in r {
      FilterMember(cs, (c: Category) => c.id != id, cs[i]);
    }
    r
  }

  lemma DeleteKeepsOrder(a: seq<Category>, b: seq<Category>, id: int)
    ensures DeleteCategory(a + b, id) == DeleteCategory(a, id) + DeleteCategory(b, id)
  {
    FilterAppend(a, b, (c: Category) => c.id != id);
  }

  /** The products counters are never edited: an update of the edited
      category's own id keeps their total, and a create adds 0 to it. */
  lemma ProductTotalKept(cs: seq<Category>, editing: Category, form: CategoryForm, newId: int)
    requires editing in cs
    requires UniqueIds(cs, CategoryId)
    ensures SumBy(UpdateCategories(cs, editing, form), ProductCount) == SumBy(cs, ProductCount)
    ensures SumBy(CreateCategory(cs, form, newId), ProductCount) == SumBy(cs, ProductCount)
  {
    var k :| 0 <= k < |cs| && cs[k] == editing;
    var hit := (c: Category) => c.id == editing.id;
    var repl := Category(editing.id, editing.products, form);
    forall i | 0 <= i < |cs| && hit(cs[i]) ensures ProductCount(cs[i]) == ProductCount(repl) {
      assert CategoryId(cs[i]) == CategoryId(cs[k]);
      assert i == k;
    }
    MapReplaceKeepsSum(cs, hit, repl, ProductCount);
    SumByAppend(cs, [Category(newId, 0, form)], ProductCount);
  }

  /** `handleEdit` fills the form with exactly name and description. */
  function EditForm(c: Category): (f: CategoryForm)
    ensures f.name == c.fields.name && f.description == c.fields.description
  {
    CategoryForm(c.fields.name, c.fields.description)
  }

  /** Editing a category and saving the form untouched leaves the list as it was. */
  lemma EditThenSaveIsNoOp(cs: seq<Category>, c: Category)
    requires c in cs
    requires UniqueIds(cs, CategoryId)
    ensures UpdateCategories(cs, c, EditForm(c)) == cs
  {
    var r := UpdateCategories(cs, c, EditForm(c));
    var k :| 0 <= k < |cs| && cs[k] == c;
    forall i | 0 <= i < |cs| ensures r[i] == cs[i] {
      if cs[i].id == c.id {
        assert CategoryId(cs[i]) == CategoryId(cs[k]);
        assert i == k;
      }
    }
  }

  const SampleCategories := [
    Category(1, 15, CategoryForm("Milk Products", "Fresh milk and milk-based products")),
    Category(2, 12, CategoryForm("Yogurt & Dahi", "Traditional and Greek yogurt varieties")),
    Category(3, 8, CategoryForm("Ghee & Butter", "Pure ghee and clarified butter products")),
    Category(4, 6, CategoryForm("Buttermilk", "Fresh churned buttermilk varieties")),
    Category(5, 10, CategoryForm("Cheese", "Fresh and aged cheese varieties")),
    Category(6, 5, CategoryForm("Cream", "Fresh cream and whipped cream"))
  ]

  /** The panel's state and handlers; `confirmed` is the dialog's answer and
      `newId` stands for `Date.now()`. */
  class CategoryPanel {
    var categories: seq<Category>
    var showForm: bool
    var editingCategory: Option<Category>
    var formData: CategoryForm

    constructor ()
      ensures categories == SampleCategories && !showForm && editingCategory == None
      ensures formData == BlankForm
    {
      categories := SampleCategories;
      showForm := false;
      editingCategory := None;
      formData := BlankForm;
    }

    /** `handleSubmit`: nothing changes unless confirmed; then update or
        create, and reset the form. */
    method HandleSubmit(confirmed: bool, newId: int)
      modifies this`categories, this`formData, this`editingCategory, this`showForm
      ensures !confirmed ==> categories == old(categories) && formData == old(formData)
      ensures !confirmed ==> editingCategory == old(editingCategory) && showForm == old(showForm)
      ensures confirmed && old(editingCategory).Some? ==>
        categories == UpdateCategories(old(categories), old(editingCategory).value, old(formData))
      ensures confirmed && old(editingCategory).None? ==>
        categories == CreateCategory(old(categories), old(formData), newId)
      ensures confirmed ==> formData == BlankForm && editingCategory == None && !showForm
    {
      if confirmed {
        match editingCategory {
          case Some(e) => categories := UpdateCategories(categories, e, formData);
          case None => categories := CreateCategory(categories, formData, newId);
        }
        ResetForm();
      }
    }

    /** `handleEdit`. */
    method HandleEdit(category: Category)
      modifies this`editingCategory, this`formData, this`showForm
      ensures editingCategory == Some(category) && formData == EditForm(category) && showForm
    {
      editingCategory := Some(category);
      formData := EditForm(category);
      showForm := true;
    }

    /** The "Add New Category" button: it opens the form as it stands, so the
        form, the edit marker and the list keep their values. */
    method ShowAddForm()
      modifies this`showForm
      ensures showForm
    {
      showForm := true;
    }

    /** `handleDelete`. */
    method HandleDelete(confirmed: bool, categoryId: int)
      modifies this`categories
      ensures categories == if confirmed then DeleteCategory(old(categories), categoryId) else old(categories)
    {
      if confirmed {
        categories := DeleteCategory(categories, categoryId);
      }
    }

    /** `resetForm`: clears the form, drops the edited category, hides the form. */
    method ResetForm()
      modifies this`formData, this`editingCategory, this`showForm
      ensures formData == BlankForm && editingCategory == None && !showForm
    {
      formData := BlankForm;
      editingCategory := None;
      showForm := false;
    }
  }
}

=== FILE: change_pass.dfy ===
/** The Change Password page (src/components/ChangePass.jsx): the new
    password must be typed twice alike and be at least six characters long,
    checked in that order before the confirmation dialog and the request. */
module ChangePass {
  import opened Collections

  /** The three password fields of the form. */
  datatype PassForm = PassForm(currentPassword: string, newPassword: string, confirmPassword: string)

  const BlankForm := PassForm("", "", "")

  /** The shortest accepted new password. */
  const MinLength := 6

  const MismatchError := "New passwords do not match"
  const LengthError := "New password must be at least 6 characters"

  /** Which field a keystroke edits. */
  datatype PassField = Current | New | Confirm

  /** The body of `PUT /admin/change-password`. */
  datatype PassRequest = PassRequest(currentPassword: string, newPassword: string)

  /** The form validation: the error to show, or none. The match check comes
      first, so a short mismatched pair reports the mismatch. */
  function Validate(f: PassForm): (error: Option<string>)
    ensures error.None? <==> f.newPassword == f.confirmPassword && |f.newPassword| >= MinLength
    ensures f.newPassword != f.confirmPassword ==> error == Some(MismatchError)
    ensures f.newPassword == f.confirmPassword && |f.newPassword| < MinLength ==> error == Some(LengthError)
  {
    if f.newPassword != f.confirmPassword then Some(MismatchError)
    else if |f.newPassword| < MinLength then Some(LengthError)
    else None
  }

  /** The page's submit handler never checks the current password: any
      current password, even an empty one, passes its checks with a good new
      pair. (The form's `required` attribute keeps an empty field from
      reaching the handler; browser form checks are not modelled.) */
  lemma CurrentPasswordUnchecked(f: PassForm, current: string)
    ensures Validate(f.(currentPassword := current)) == Validate(f)
  {
  }

  /** The page's state: `requests` records the password changes sent. */
  class ChangePassPage {
    var formData: PassForm
    var loading: bool
    var message: string
    var error: string
    var requests: seq<PassRequest>

    /** Every password change sent so far carries a new password of at least
        six characters. */
    ghost predicate Valid()
      reads this
    {
      forall i :: 0 <= i < |requests| ==> |requests[i].newPassword| >= MinLength
    }

    constructor ()
      ensures formData == BlankForm && !loading && message == "" && error == "" && requests == []
      ensures Valid()
    {
      formData := BlankForm;
      loading := false;
      message := "";
      error := "";
      requests := [];
    }

    /** A keystroke in one field replaces that field and no other. */
    method HandleChange(field: PassField, value: string)
      modifies this`formData
      ensures field == Current ==> formData == old(formData).(currentPassword := value)
      ensures field == New ==> formData == old(formData).(newPassword := value)
      ensures field == Confirm ==> formData == old(formData).(confirmPassword := value)
    {
      match field {
        case Current => formData := formData.(currentPassword := value);
        case New => formData := formData.(newPassword := value);
        case Confirm => formData := formData.(confirmPassword := value);
      }
    }

    /** `handleSubmit`: `confirmed` is the dialog's answer and `apiOk` the
        request's outcome. A failed check shows its error and sends nothing;
        otherwise, once confirmed, the request is sent and a success clears the
        three fields. `loading` is false afterwards in every case. */
    method HandleSubmit(confirmed: bool, apiOk: bool)
      modifies this`formData, this`loading, this`message, this`error, this`requests
      requires Valid()
      ensures Valid()
      ensures !loading && message == ""
      ensures Validate(old(formData)).Some? ==> error == Validate(old(formData)).value
      ensures Validate(old(formData)).Some? ==> requests == old(requests) && formData == old(formData)
      ensures Validate(old(formData)).None? ==> error == ""
      ensures Validate(old(formData)).None? && confirmed ==>
        requests == old(requests) + [PassRequest(old(formData).currentPassword, old(formData).newPassword)]
      ensures Validate(old(formData)).None? && !confirmed ==> requests == old(requests)
      ensures Validate(old(formData)).None? && confirmed && apiOk ==> formData == BlankForm
      ensures !(Validate(old(formData)).None? && confirmed && apiOk) ==> formData == old(formData)
    {
      loading := true;
      error := "";
      message := "";
      var check := Validate(formData);
      if check.Some? {
        error := check.value;
        loading := false;
        return;
      }
      if confirmed {
        requests := requests + [PassRequest(formData.currentPassword, formData.newPassword)];
        if apiOk {
          formData := BlankForm;
        }
      }
      loading := false;
    }
  }
}

=== FILE: collections.dfy ===
/** The list transforms every admin panel applies to its records: JavaScript's
    `filter`, the replace-by-id `map`, spread-append, `reduce` for sums and
    `reverse`. Each panel instantiates them with its own record type and id. */
module Collections {

  datatype Option<T> = None | Some(value: T)

  /** `xs.filter(keep)`: the elements satisfying `keep`, in their original order. */
  function Filter<T>(xs: seq<T>, keep: T -> bool): (r: seq<T>)
    ensures |r| <= |xs|
    ensures forall i :: 0 <= i < |r| ==> keep(r[i])
    ensures multiset(r) <= multiset(xs)
  {
    if xs == [] then []
    else
      var rest := Filter(xs[1..], keep);
      assert xs == [xs[0]] + xs[1..];
      if keep(xs[0]) then [xs[0]] + rest else rest
  }

  /** An element survives the filter exactly when it was in the list and is kept. */
  lemma {:induction false} FilterMember<T>(xs: seq<T>, keep: T -> bool, x: T)
    ensures x in Filter(xs, keep) <==> x in xs && keep(x)
  {
    if xs != [] {
      FilterMember(xs[1..], keep, x);
      assert xs == [xs[0]] + xs[1..];
    }
  }

  /** Filtering distributes over concatenation: relative order is kept. */
  lemma {:induction false} FilterAppend<T>(a: seq<T>, b: seq<T>, keep: T -> bool)
    ensures Filter(a + b, keep) == Filter(a, keep) + Filter(b, keep)
  {
    if a != [] {
      assert (a + b)[0] == a[0];
      assert (a + b)[1..] == a[1..] + b;
      FilterAppend(a[1..], b, keep);
    } else {
      assert a + b == b;
    }
  }

  /** When every element is kept, filtering changes nothing. */
  lemma {:induction false} FilterKeepsAll<T>(xs: seq<T>, keep: T -> bool)
    requires forall i :: 0 <= i < |xs| ==> keep(xs[i])
    ensures Filter(xs, keep) == xs
  {
    if xs != [] {
      FilterKeepsAll(xs[1..], keep);
      assert xs == [xs[0]] + xs[1..];
    }
  }

  /** `xs[i]` is the first element satisfying `p`. */
  ghost predicate FirstMatch<T>(xs: seq<T>, p: T -> bool, i: int)
  {
    0 <= i < |xs| && p(xs[i]) && forall j :: 0 <= j < i ==> !p(xs[j])
  }

  /** `xs.find(p)`: the first element satisfying `p`, if any. */
  function Find<T>(xs: seq<T>, p: T -> bool): (r: Option<T>)
    ensures r.None? <==> forall i :: 0 <= i < |xs| ==> !p(xs[i])
    ensures r.Some? ==> exists i :: FirstMatch(xs, p, i) && xs[i] == r.value
  {
    if xs == [] then None
    else if p(xs[0]) then
      assert FirstMatch(xs, p, 0);
      Some(xs[0])
    else
      var r := Find(xs[1..], p);
      assert r.Some? ==> exists i :: FirstMatch(xs, p, i) && xs[i] == r.value by {
        if r.Some? {
          var i :| FirstMatch(xs[1..], p, i) && xs[1..][i] == r.value;
          assert FirstMatch(xs, p, i + 1);
        }
      }
      r
  }

  /** Two tests that agree on every element find the same element. */
  lemma {:induction false} FindAgrees<T>(xs: seq<T>, p: T -> bool, q: T -> bool)
    requires forall i :: 0 <= i < |xs| ==> p(xs[i]) == q(xs[i])
    ensures Find(xs, p) == Find(xs, q)
  {
    if xs != [] {
      FindAgrees(xs[1..], p, q);
    }
  }

  /** Number of elements satisfying `p` (`xs.filter(p).length`). */
  function Count<T>(xs: seq<T>, p: T -> bool): nat
  {
    |Filter(xs, p)|
  }

  /** The count is zero exactly when no element satisfies `p`. */
  lemma CountZero<T>(xs: seq<T>, p: T -> bool)
    ensures Count(xs, p) == 0 <==> forall i :: 0 <= i < |xs| ==> !p(xs[i])
  {
    forall i | 0 <= i < |xs| && p(xs[i]) ensures xs[i] in Filter(xs, p) {
      FilterMember(xs, p, xs[i]);
    }
    var r := Filter(xs, p);
    if |r| > 0 {
      assert r[0] in multiset(r);
      var k :| 0 <= k < |xs| && xs[k] == r[0];
    }
  }

  /** If every element satisfies exactly one of `p` and `q`, the two counts add
      up to the length of the list. */
  lemma {:induction false} CountSplit<T>(xs: seq<T>, p: T -> bool, q: T -> bool)
    requires forall i :: 0 <= i < |xs| ==> p(xs[i]) != q(xs[i])
    ensures Count(xs, p) + Count(xs, q) == |xs|
  {
    if xs != [] {
      CountSplit(xs[1..], p, q);
    }
  }

  /** `xs.map(x => hit(x) ? repl : x)`: the replace-by-id update of every panel. */
  function MapReplace<T>(xs: seq<T>, hit: T -> bool, repl: T): (r: seq<T>)
    ensures |r| == |xs|
    ensures forall i :: 0 <= i < |xs| ==> r[i] == if hit(xs[i]) then repl else xs[i]
  {
    if xs == [] then []
    else [if hit(xs[0]) then repl else xs[0]] + MapReplace(xs[1..], hit, repl)
  }

  /** Replacing where nothing matches is the identity. */
  lemma MapReplaceNoHit<T>(xs: seq<T>, hit: T -> bool, repl: T)
    requires forall i :: 0 <= i < |xs| ==> !hit(xs[i])
    ensures MapReplace(xs, hit, repl) == xs
  {
    assert forall i :: 0 <= i < |xs| ==> MapReplace(xs, hit, repl)[i] == xs[i];
  }

  /** A replacement that agrees with every record it replaces on `f` leaves the
      sum of `f` unchanged. */
  lemma {:induction false} MapReplaceKeepsSum<T>(xs: seq<T>, hit: T -> bool, repl: T, f: T -> int)
    requires forall i :: 0 <= i < |xs| && hit(xs[i]) ==> f(xs[i]) == f(repl)
    ensures SumBy(MapReplace(xs, hit, repl), f) == SumBy(xs, f)
  {
    if xs != [] {
      MapReplaceKeepsSum(xs[1..], hit, repl, f);
    }
  }

  /** `xs.reduce((s, x) => s + f(x), 0)`. */
  function SumBy<T>(xs: seq<T>, f: T -> int): int
  {
    if xs == [] then 0 else f(xs[0]) + SumBy(xs[1..], f)
  }

  lemma {:induction false} SumByAppend<T>(a: seq<T>, b: seq<T>, f: T -> int)
    ensures SumBy(a + b, f) == SumBy(a, f) + SumBy(b, f)
  {
    if a == [] {
      assert a + b == b;
    } else {
      assert (a + b)[0] == a[0];
      assert (a + b)[1..] == a[1..] + b;
      SumByAppend(a[1..], b, f);
    }
  }

  /** A sum does not depend on the order of the list. */
  lemma {:induction false} SumByReverse<T>(xs: seq<T>, f: T -> int)
    ensures SumBy(Reverse(xs), f) == SumBy(xs, f)
  {
    if xs != [] {
      SumByReverse(xs[1..], f);
      SumByAppend(Reverse(xs[1..]), [xs[0]], f);
    }
  }

  /** `Array.prototype.reverse` as a value. */
  function Reverse<T>(xs: seq<T>): (r: seq<T>)
    ensures |r| == |xs|
    ensures forall i :: 0 <= i < |xs| ==> r[i] == xs[|xs| - 1 - i]
  {
    if xs == [] then [] else Reverse(xs[1..]) + [xs[0]]
  }

  lemma ReverseReverse<T>(xs: seq<T>)
    ensures Reverse(Reverse(xs)) == xs
  {
    var r := Reverse(Reverse(xs));
    assert forall i :: 0 <= i < |xs| ==> r[i] == xs[i];
  }

  /** Filtering commutes with reversal. */
  lemma {:induction false} FilterReverse<T>(xs: seq<T>, keep: T -> bool)
    ensures Filter(Reverse(xs), keep) == Reverse(Filter(xs, keep))
  {
    if xs != [] {
      FilterReverse(xs[1..], keep);
      FilterAppend(Reverse(xs[1..]), [xs[0]], keep);
      assert Filter([xs[0]], keep) == if keep(xs[0]) then [xs[0]] else [];
      var rest := Filter(xs[1..], keep);
      if keep(xs[0]) {
        assert Filter(xs, keep) == [xs[0]] + rest;
        assert Reverse([xs[0]] + rest) == Reverse(rest) + [xs[0]] by {
          assert ([xs[0]] + rest)[1..] == rest;
        }
      } else {
        assert Filter(xs, keep) == rest;
      }
    }
  }

  /** The `reverse` the source performs in place on an array. */
  method ReverseInPlace<T>(a: array<T>)
    modifies a
    ensures a[..] == Reverse(old(a[..]))
  {
    ghost var original := a[..];
    ghost var target := Reverse(original);
    var lo, hi := 0, a.Length;
    // Both ends already hold their final elements; the middle is untouched.
    while hi - lo >= 2
      invariant 0 <= lo <= hi <= a.Length && lo + hi == a.Length
      invariant forall k :: 0 <= k < lo ==> a[k] == target[k]
      invariant forall k :: hi <= k < a.Length ==> a[k] == target[k]
      invariant forall k :: lo <= k < hi ==> a[k] == original[k]
    {
      a[lo], a[hi - 1] := a[hi - 1], a[lo];
      lo, hi := lo + 1, hi - 1;
    }
    assert forall k :: 0 <= k < a.Length ==> a[..][k] == target[k];
  }

  /** No two records of the list carry the same id (the source never checks this). */
  ghost predicate UniqueIds<T, K>(xs: seq<T>, idOf: T -> K)
  {
    forall i, j :: 0 <= i < j < |xs| ==> idOf(xs[i]) != idOf(xs[j])
  }

  /** Appending a record whose id is fresh keeps ids unique. */
  lemma AppendKeepsUnique<T, K>(xs: seq<T>, x: T, idOf: T -> K)
    requires UniqueIds(xs, idOf)
    requires forall i :: 0 <= i < |xs| ==> idOf(xs[i]) != idOf(x)
    ensures UniqueIds(xs + [x], idOf)
  {
    var ys := xs + [x];
    forall i, j | 0 <= i < j < |ys| ensures idOf(ys[i]) != idOf(ys[j]) {
      if j < |xs| {
        assert ys[i] == xs[i] && ys[j] == xs[j];
      } else {
        assert ys[i] == xs[i] && ys[j] == x;
      }
    }
  }

  /** Filtering keeps ids unique. */
  lemma {:induction false} FilterKeepsUnique<T, K>(xs: seq<T>, keep: T -> bool, idOf: T -> K)
    requires UniqueIds(xs, idOf)
    ensures UniqueIds(Filter(xs, keep), idOf)
  {
    if xs != [] {
      var rest := Filter(xs[1..], keep);
      FilterKeepsUnique(xs[1..], keep, idOf);
      if keep(xs[0]) {
        var r := [xs[0]] + rest;
        forall y | y in rest ensures idOf(y) != idOf(xs[0]) {
          FilterMember(xs[1..], keep, y);
          var k :| 0 <= k < |xs[1..]| && xs[1..][k] == y;
          assert xs[k + 1] == y;
        }
        forall i, j | 0 <= i < j < |r| ensures idOf(r[i]) != idOf(r[j]) {
          if i == 0 {
            assert r[j] == rest[j - 1] && r[j] in rest;
          } else {
            assert r[i] == rest[i - 1] && r[j] == rest[j - 1];
          }
        }
      }
    }
  }

  /** Replacing matching records by one that keeps the matched id keeps ids unique. */
  lemma MapReplaceKeepsUnique<T, K>(xs: seq<T>, idOf: T -> K, id: K, repl: T)
    requires UniqueIds(xs, idOf)
    requires idOf(repl) == id
    ensures UniqueIds(MapReplace(xs, (x: T) => idOf(x) == id, repl), idOf)
  {
    var r := MapReplace(xs, (x: T) => idOf(x) == id, repl);
    forall i, j | 0 <= i < j < |r| ensures idOf(r[i]) != idOf(r[j]) {
      assert idOf(r[i]) == idOf(xs[i]) && idOf(r[j]) == idOf(xs[j]);
    }
  }
}

=== FILE: dashboard.dfy ===
/** The Dashboard (src/components/Dashboard.jsx): the statistics cards, built
    from the server's statistics, the stored payments and stores and the
    sample users; the stored-stores fallback; the search box and its results. */
module Dashboard {
  import opened Collections
  import Payments
  import Users

  /** A store as the dashboard reads it from browser storage; `revenue` may be absent. */
  datatype DashStore = DashStore(id: int, name: string, status: string, revenue: Option<int>)

  /** `store.revenue || 0`. */
  function RevenueOrZero(s: DashStore): int
  {
    match s.revenue
    case Some(r) => r
    case None => 0
  }

  const DefaultStores := [
    DashStore(1, "Main Store", "active", Some(15000)),
    DashStore(2, "Branch Store", "active", Some(12500)),
    DashStore(3, "Express Store", "inactive", Some(8200))
  ]

  /** `fetchStores`' choice: the stored stores when there are any, else the defaults. */
  function ChooseStores(stored: seq<DashStore>): (r: seq<DashStore>)
    ensures |stored| > 0 ==> r == stored
    ensures |stored| == 0 ==> r == DefaultStores
    ensures |r| > 0
  {
    if |stored| > 0 then stored else DefaultStores
  }

  /** Once the defaults are written back, a second `fetchStores` chooses the
      same stores and writes nothing. */
  lemma ChooseStoresIdempotent(stored: seq<DashStore>)
    ensures ChooseStores(ChooseStores(stored)) == ChooseStores(stored)
    ensures |ChooseStores(stored)| > 0
  {
  }

  /** The dashboard's own copy of the eight sample users (without mobiles). */
  const DashboardUsers := [
    Users.User("1", "John Doe", "john.doe@example.com", None, "user", "active", "2024-01-15T10:30:00Z"),
    Users.User("2", "Jane Smith", "jane.smith@example.com", None, "admin", "active", "2024-01-10T14:20:00Z"),
    Users.User("3", "Mike Johnson", "mike.johnson@example.com", None, "user", "inactive", "2024-01-08T09:15:00Z"),
    Users.User("4", "Sarah Wilson", "sarah.wilson@example.com", None, "user", "active", "2024-01-05T16:45:00Z"),
    Users.User("5", "David Brown", "david.brown@example.com", None, "moderator", "active", "2024-01-03T11:30:00Z"),
    Users.User("6", "Lisa Davis", "lisa.davis@example.com", None, "user", "inactive", "2023-12-28T13:20:00Z"),
    Users.User("7", "Robert Miller", "robert.miller@example.com", None, "user", "active", "2023-12-25T08:10:00Z"),
    Users.User("8", "Emily Garcia", "emily.garcia@example.com", None, "admin", "active", "2023-12-20T15:35:00Z")
  ]

  predicate IsActive(u: Users.User) { u.status == "active" }
  predicate IsInactive(u: Users.User) { u.status == "inactive" }

  /** Counting a suffix: its first user, then the rest. */
  lemma CountStep(users: seq<Users.User>, k: nat, p: Users.User -> bool)
    requires k < |users|
    ensures Count(users[k..], p) == (if p(users[k]) then 1 else 0) + Count(users[k + 1..], p)
  {
    assert users[k..][1..] == users[k + 1..];
  }

  /** When every user is active or inactive, the active and inactive cards
      add up to the users card. */
  lemma ActivePlusInactiveIsTotal(users: seq<Users.User>)
    requires forall i :: 0 <= i < |users| ==> IsActive(users[i]) || IsInactive(users[i])
    ensures Count(users, IsActive) + Count(users, IsInactive) == |users|
  {
    CountSplit(users, IsActive, IsInactive);
  }

  /** The sample users are all active or inactive. */
  lemma SampleUsersActiveOrInactive()
    ensures |DashboardUsers| == 8
    ensures forall i :: 0 <= i < |DashboardUsers| ==> IsActive(DashboardUsers[i]) || IsInactive(DashboardUsers[i])
  {
  }

  /** The number of suffix users with `p`, counted from the back one user at a time. */
  lemma CountSuffixes(users: seq<Users.User>, p: Users.User -> bool, counts: seq<nat>)
    requires |counts| == |users| + 1 && counts[|users|] == 0
    requires forall k :: 0 <= k < |users| ==> counts[k] == (if p(users[k]) then 1 else 0) + counts[k + 1]
    ensures Count(users, p) == counts[0]
  {
    var k := |users|;
    assert users[k..] == [];
    while k > 0
      invariant 0 <= k <= |users|
      invariant Count(users[k..], p) == counts[k]
    {
      k := k - 1;
      CountStep(users, k, p);
    }
    assert users[0..] == users;
  }

  /** Six of the sample users are active... */
  lemma SampleActiveCount()
    ensures Count(DashboardUsers, IsActive) == 6
  {
    SampleUsersActiveOrInactive();
    CountSuffixes(DashboardUsers, IsActive, [6, 5, 4, 4, 3, 2, 2, 1, 0]);
  }

  /** ...and two inactive. */
  lemma SampleInactiveCount()
    ensures Count(DashboardUsers, IsInactive) == 2
  {
    SampleUsersActiveOrInactive();
    CountSuffixes(DashboardUsers, IsInactive, [2, 2, 2, 1, 1, 1, 0, 0, 0]);
  }

  /** The statistics object: each card's key, present or absent. */
  datatype Stats = Stats(
    totalUsers: Option<int>, activeUsers: Option<int>, inactiveUsers: Option<int>,
    totalAdmins: Option<int>, totalPayments: Option<int>, totalCategories: Option<int>,
    totalProducts: Option<int>, totalOrders: Option<int>, totalDeliveryBoys: Option<int>,
    totalStoreItems: Option<int>, totalStores: Option<int>, totalStorePayments: Option<int>)

  /** The initial `{}`. */
  const NoStats := Stats(None, None, None, None, None, None, None, None, None, None, None, None)

  /** The statistics computed in the browser, the same in both branches. */
  datatype LocalFigures = LocalFigures(
    totalUsers: int, activeUsers: int, inactiveUsers: int,
    totalPayments: int, totalStores: int, totalStorePayments: int)

  /** The users' count and its active and inactive parts, the sum of the
      stored payments' totals, the number of stores and the sum of their
      revenues (a missing revenue counts 0). */
  function Figures(users: seq<Users.User>, payments: seq<Payments.Payment>, stores: seq<DashStore>): (f: LocalFigures)
    ensures f.totalUsers == |users| && f.totalStores == |stores|
    ensures f.activeUsers <= f.totalUsers && f.inactiveUsers <= f.totalUsers
  {
    LocalFigures(|users|, Count(users, IsActive), Count(users, IsInactive),
      SumBy(payments, Payments.PaymentTotal), |stores|, SumBy(stores, RevenueOrZero))
  }

  /** Success: `{ ...res.data, <browser figures> }`. Every key the browser
      computes overrides the server's; only `totalAdmins` is the server's. */
  function SuccessStats(remote: Stats, f: LocalFigures): (s: Stats)
    ensures s.totalAdmins == remote.totalAdmins
    ensures s.totalPayments == Some(f.totalPayments) && s.totalStores == Some(f.totalStores)
    ensures s.totalStorePayments == Some(f.totalStorePayments)
  {
    remote.(totalUsers := Some(f.totalUsers), activeUsers := Some(f.activeUsers),
      inactiveUsers := Some(f.inactiveUsers), totalPayments := Some(f.totalPayments),
      totalCategories := Some(6), totalProducts := Some(15), totalOrders := Some(25),
      totalDeliveryBoys := Some(8), totalStoreItems := Some(12), totalStores := Some(f.totalStores),
      totalStorePayments := Some(f.totalStorePayments))
  }

  /** Failure: the same figures with `totalAdmins: 0`. */
  function FailureStats(f: LocalFigures): (s: Stats)
    ensures s.totalAdmins == Some(0)
    ensures s == SuccessStats(NoStats, f).(totalAdmins := Some(0))
  {
    Stats(Some(f.totalUsers), Some(f.activeUsers), Some(f.inactiveUsers),
      Some(0), Some(f.totalPayments), Some(6), Some(15), Some(25), Some(8), Some(12),
      Some(f.totalStores), Some(f.totalStorePayments))
  }

  /** Whatever the server answers, success and failure show the same cards
      except the admins card; that one is the server's figure or 0. */
  lemma BranchesDifferOnlyInAdmins(remote: Stats, f: LocalFigures)
    ensures SuccessStats(remote, f).(totalAdmins := Some(0)) == FailureStats(f)
  {
  }

  /** With the sample users the figures are 8 users, 6 active and 2 inactive.
      The first two feed the users cards; the inactive count is computed but
      displayed nowhere, since its only reader, the chart, is commented out. */
  lemma SampleUserCards(payments: seq<Payments.Payment>, stores: seq<DashStore>)
    ensures var f := Figures(DashboardUsers, payments, stores);
      f.totalUsers == 8 && f.activeUsers == 6 && f.inactiveUsers == 2
  {
    SampleUsersActiveOrInactive();
    SampleActiveCount();
    SampleInactiveCount();
  }

  /** The payments card agrees with the Payments panel: the dashboard sums the
      stored payments, the panel the list on screen. */
  lemma PaymentCardMatchesPaymentPanel(panel: Payments.PaymentPanel)
    requires panel.Valid()
    ensures Figures([], panel.storage, []).totalPayments == panel.TotalPayments()
  {
    panel.TotalIsStoredTotal();
  }

  /** A card's figure: `stats.key || fallback`. */
  function Shown(v: Option<int>, fallback: int): (r: int)
    ensures r == fallback <==> v.None? || v.value == 0 || v.value == fallback
    ensures r != fallback ==> v.Some? && r == v.value
  {
    if v.Some? && v.value != 0 then v.value else fallback
  }

  /** The stores card never shows its fallback 5 instead of the real count:
      the stores always number at least one. The store revenue card shows
      45000 exactly when the revenues add up to 0 or to 45000. */
  lemma StoreCardsShowFigures(remote: Stats, apiOk: bool, users: seq<Users.User>, payments: seq<Payments.Payment>, stored: seq<DashStore>)
    ensures var f := Figures(users, payments, ChooseStores(stored));
      var stats := if apiOk then SuccessStats(remote, f) else FailureStats(f);
      Shown(stats.totalStores, 5) == |ChooseStores(stored)| &&
      (Shown(stats.totalStorePayments, 45000) == 45000 <==> f.totalStorePayments == 0 || f.totalStorePayments == 45000)
  {
  }

  /** The orders, products, delivery-boys and categories cards show the
      browser's fixed figures in both branches; the admins figure, which no
      card displays, is the server's on success (0 when it sends none) and 0
      on failure. */
  lemma FixedCards(remote: Stats, apiOk: bool, f: LocalFigures)
    ensures var stats := if apiOk then SuccessStats(remote, f) else FailureStats(f);
      Shown(stats.totalOrders, 0) == 25 && Shown(stats.totalProducts, 0) == 15 &&
      Shown(stats.totalDeliveryBoys, 8) == 8 && Shown(stats.totalCategories, 6) == 6 &&
      Shown(stats.totalAdmins, 0) == (if apiOk then Shown(remote.totalAdmins, 0) else 0)
  {
  }

  // ---------------------------------------------------------------------------
  // Search (the handlers exist, but no element of the rendered page calls them)

  datatype SearchResult = SearchResult(kind: string, title: string)

  /** `handleResultClick`'s page: users, orders or products by the result's
      type, any other type keeps the current page. */
  function PageFor(kind: string, current: string): (page: string)
    ensures kind == "user" ==> page == "users"
    ensures kind == "order" ==> page == "orders"
    ensures kind == "product" ==> page == "products"
    ensures kind != "user" && kind != "order" && kind != "product" ==> page == current
  {
    if kind == "user" then "users"
    else if kind == "order" then "orders"
    else if kind == "product" then "products"
    else current
  }

  /** The dashboard's state. `storedStores` and `storedPayments` are the
      'stores' and 'payments' entries of browser storage; `searches` records
      the search requests sent. */
  class DashboardPanel {
    var activePage: string
    var stats: Stats
    var searchTerm: string
    var searchResults: seq<SearchResult>
    var showSearchResults: bool
    var stores: seq<DashStore>
    var storedStores: seq<DashStore>
    var storedPayments: seq<Payments.Payment>
    var searches: seq<string>
    /** The hard-coded user list the figures are counted from. */
    const users: seq<Users.User>

    constructor (savedStores: seq<DashStore>, savedPayments: seq<Payments.Payment>)
      ensures activePage == "dashboard" && stats == NoStats && searchTerm == "" && searchResults == []
      ensures !showSearchResults && stores == [] && searches == []
      ensures storedStores == savedStores && storedPayments == savedPayments
      ensures users == DashboardUsers
    {
      activePage := "dashboard";
      stats := NoStats;
      searchTerm := "";
      searchResults := [];
      showSearchResults := false;
      stores := [];
      storedStores := savedStores;
      storedPayments := savedPayments;
      searches := [];
      users := DashboardUsers;
    }

    /** `fetchStores`: shows and returns the chosen stores, writing the
        defaults to storage only when storage held none. */
    method FetchStores() returns (storesData: seq<DashStore>)
      modifies this`stores, this`storedStores
      ensures storesData == ChooseStores(old(storedStores)) && stores == storesData
      ensures |old(storedStores)| > 0 ==> storedStores == old(storedStores)
      ensures |old(storedStores)| == 0 ==> storedStores == DefaultStores
    {
      storesData := ChooseStores(storedStores);
      stores := storesData;
      if |storedStores| == 0 {
        storedStores := DefaultStores;
      }
    }

    /** `fetchDashboardStats`: `apiOk` and `remote` are the outcome of the
        statistics request. */
    method FetchDashboardStats(apiOk: bool, remote: Stats)
      modifies this`stats, this`stores, this`storedStores
      ensures stores == ChooseStores(old(storedStores))
      ensures apiOk ==> stats == SuccessStats(remote, Figures(users, storedPayments, stores))
      ensures !apiOk ==> stats == FailureStats(Figures(users, storedPayments, stores))
      ensures storedStores == stores
    {
      var storesData := FetchStores();
      var figures := Figures(users, storedPayments, storesData);
      if apiOk {
        stats := SuccessStats(remote, figures);
      } else {
        stats := FailureStats(figures);
      }
    }

    /** `handleSearch`: a term shorter than 2 characters clears and hides the
        results without a request; otherwise the request is sent and its
        results shown, and a failed request clears the results. */
    method HandleSearch(term: string, apiOk: bool, results: seq<SearchResult>)
      modifies this`searchResults, this`showSearchResults, this`searches
      ensures |term| < 2 ==> searchResults == [] && !showSearchResults && searches == old(searches)
      ensures |term| >= 2 ==> searches == old(searches) + [term]
      ensures |term| >= 2 && apiOk ==> searchResults == results && showSearchResults
      ensures |term| >= 2 && !apiOk ==> searchResults == [] && showSearchResults == old(showSearchResults)
    {
      if |term| < 2 {
        searchResults := [];
        showSearchResults := false;
        return;
      }
      searches := searches + [term];
      if apiOk {
        searchResults := results;
        showSearchResults := true;
      } else {
        searchResults := [];
      }
    }

    /** `handleSearchChange`: keep the typed text, then search it. */
    method HandleSearchChange(value: string, apiOk: bool, results: seq<SearchResult>)
      modifies this`searchTerm, this`searchResults, this`showSearchResults, this`searches
      ensures searchTerm == value
      ensures |value| < 2 ==> searchResults == [] && !showSearchResults && searches == old(searches)
      ensures |value| >= 2 ==> searches == old(searches) + [value]
    {
      searchTerm := value;
      HandleSearch(value, apiOk, results);
    }

    /** `handleResultClick`: go to the result's page, clear the term and hide the results. */
    method HandleResultClick(result: SearchResult)
      modifies this`activePage, this`searchTerm, this`showSearchResults
      ensures activePage == PageFor(result.kind, old(activePage))
      ensures searchTerm == "" && !showSearchResults
    {
      activePage := PageFor(result.kind, activePage);
      searchTerm := "";
      showSearchResults := false;
    }
  }
}

=== FILE: delivery_boy.dfy ===
/** The Delivery Boys panel (src/components/DeliveryBoy.jsx): a list of
    delivery boys with password, city and photo, changed after a confirmation
    dialog, exported as one CSV text, shown ten per page. */
module DeliveryBoys {
  import opened Collections
  import opened Text
  import Paging

  /** The form (`formData`); `image` is null or the photo's data URL. */
  datatype BoyForm = BoyForm(
    name: string, phone: string, password: string, city: string, status: string,
    image: Option<string>)

  /** A delivery boy: the form fields plus `id` and the `orders` counter. */
  datatype Boy = Boy(id: int, orders: int, fields: BoyForm)

  const BlankForm := BoyForm("", "", "", "", "active", None)

  function BoyId(b: Boy): int { b.id }

  /** Update: the delivery boy with the edited id takes the form fields and
      keeps the edited record's id and `orders` counter; the rest are untouched. */
  function UpdateBoys(boys: seq<Boy>, editing: Boy, form: BoyForm): (r: seq<Boy>)
    ensures |r| == |boys|
    ensures forall i :: 0 <= i < |boys| && boys[i].id == editing.id ==>
      r[i].id == editing.id && r[i].orders == editing.orders && r[i].fields == form
    ensures forall i :: 0 <= i < |boys| && boys[i].id != editing.id ==> r[i] == boys[i]
  {
    MapReplace(boys, (b: Boy) => b.id == editing.id, Boy(editing.id, editing.orders, form))
  }

  /** Create appends one delivery boy with the new id and `orders: 0`. */
  function CreateBoy(boys: seq<Boy>, form: BoyForm, newId: int): (r: seq<Boy>)
    ensures |r| == |boys| + 1 && r[..|boys|] == boys
    ensures r[|boys|].id == newId && r[|boys|].orders == 0 && r[|boys|].fields == form
  {
    boys + [Boy(newId, 0, form)]
  }

  /** Delete drops every delivery boy with the id and keeps the rest. */
  function DeleteBoy(boys: seq<Boy>, id: int): (r: seq<Boy>)
    ensures forall i :: 0 <= i < |r| ==> r[i].id != id
    ensures forall i :: 0 <= i < |boys| && boys[i].id != id ==> boys[i] in r
  {
    var r := Filter(boys, (b: Boy) => b.id != id);
    forall i | 0 <= i < |boys| && boys[i].id != id ensures boys[i] in r {
      FilterMember(boys, (b: Boy) => b.id != id, boys[i]);
    }
    r
  }

  /** Deleting keeps the relative order of the others, and an absent id is a no-op. */
  lemma DeleteKeepsOrder(a: seq<Boy>, b: seq<Boy>, id: int)
    ensures DeleteBoy(a + b, id) == DeleteBoy(a, id) + DeleteBoy(b, id)
    ensures (forall i :: 0 <= i < |a| ==> a[i].id != id) ==> DeleteBoy(a, id) == a
  {
    FilterAppend(a, b, (x: Boy) => x.id != id);
    if forall i :: 0 <= i < |a| ==> a[i].id != id {
      FilterKeepsAll(a, (x: Boy) => x.id != id);
    }
  }

  /** `handleEdit` copies exactly name, phone, password, city, status and image. */
  function EditForm(b: Boy): (f: BoyForm)
    ensures f.name == b.fields.name && f.phone == b.fields.phone && f.password == b.fields.password
    ensures f.city == b.fields.city && f.status == b.fields.status && f.image == b.fields.image
  {
    BoyForm(b.fields.name, b.fields.phone, b.fields.password, b.fields.city, b.fields.status, b.fields.image)
  }

  /** Editing a delivery boy and saving the form untouched leaves the list as it was. */
  lemma {:induction false} EditThenSaveIsNoOp(boys: seq<Boy>, b: Boy)
    requires b in boys
    requires UniqueIds(boys, BoyId)
    ensures UpdateBoys(boys, b, EditForm(b)) == boys
  {
    var r := UpdateBoys(boys, b, EditForm(b));
    var k :| 0 <= k < |boys| && boys[k] == b;
    forall i | 0 <= i < |boys| ensures r[i] == boys[i] {
      if boys[i].id == b.id {
        assert BoyId(boys[i]) == BoyId(boys[k]);
        assert i == k;
      }
    }
  }

  /** The separator in the source is the two-character text backslash-n, not
      a line break. */
  const LiteralBackslashN := "\\n"

  const CsvHeader := Join(["Name", "Phone", "City", "Status", "Orders Delivered"], ",")

  function BoyCsvRow(b: Boy): string
  {
    Join([b.fields.name, b.fields.phone, b.fields.city, b.fields.status, IntToString(b.orders)], ",")
  }

  /** The export: header, then the rows, all joined by backslash-n. */
  function BoysCsv(boys: seq<Boy>): string
  {
    CsvHeader + LiteralBackslashN + Join(seq(|boys|, i requires 0 <= i < |boys| => BoyCsvRow(boys[i])), LiteralBackslashN)
  }

  lemma HeaderIsOneLine()
    ensures '\n' !in CsvHeader
  {
    var cells := ["Name", "Phone", "City", "Status", "Orders Delivered"];
    assert forall k :: 0 <= k < |cells| ==> '\n' !in cells[k];
    JoinAvoids(cells, ",", '\n');
  }

  /** However many delivery boys there are, the export is a single line: the
      separator holds no line break, so no reader sees one row per line. */
  lemma CsvIsOneLine(boys: seq<Boy>)
    requires forall i :: 0 <= i < |boys| ==>
      '\n' !in boys[i].fields.name && '\n' !in boys[i].fields.phone &&
      '\n' !in boys[i].fields.city && '\n' !in boys[i].fields.status
    ensures '\n' !in LiteralBackslashN && |LiteralBackslashN| == 2
    ensures '\n' !in BoysCsv(boys)
    ensures |Split(BoysCsv(boys), '\n')| == 1
  {
    HeaderIsOneLine();
    var rows := seq(|boys|, i requires 0 <= i < |boys| => BoyCsvRow(boys[i]));
    forall i | 0 <= i < |boys| ensures '\n' !in rows[i] {
      var b := boys[i];
      IntToStringIsCsvSafe(b.orders);
      var cells := [b.fields.name, b.fields.phone, b.fields.city, b.fields.status, IntToString(b.orders)];
      assert forall k :: 0 <= k < |cells| ==> '\n' !in cells[k];
      JoinAvoids(cells, ",", '\n');
    }
    JoinAvoids(rows, LiteralBackslashN, '\n');
    SplitNoDelimiter(BoysCsv(boys), '\n');
  }

  const SampleBoys := [
    Boy(1, 15, BoyForm("Raj Kumar", "9876543210", "raj123", "Mumbai", "active", None)),
    Boy(2, 12, BoyForm("Amit Singh", "9876543211", "amit123", "Delhi", "active", None)),
    Boy(3, 8, BoyForm("Suresh Yadav", "9876543212", "suresh123", "Pune", "inactive", None))
  ]

  /** The panel's state and handlers; `confirmed` is the dialog's answer and
      `newId` stands for `Date.now()`. */
  class DeliveryBoyPanel {
    var deliveryBoys: seq<Boy>
    var showForm: bool
    var editingDeliveryBoy: Option<Boy>
    var formData: BoyForm
    var currentPage: int

    constructor ()
      ensures deliveryBoys == SampleBoys && !showForm && editingDeliveryBoy == None
      ensures formData == BlankForm && currentPage == 1
    {
      deliveryBoys := SampleBoys;
      showForm := false;
      editingDeliveryBoy := None;
      formData := BlankForm;
      currentPage := 1;
    }

    /** `handleSubmit`: nothing changes unless confirmed; then update or
        create, and reset the form. */
    method HandleSubmit(confirmed: bool, newId: int)
      modifies this`deliveryBoys, this`formData, this`editingDeliveryBoy, this`showForm
      ensures !confirmed ==> deliveryBoys == old(deliveryBoys) && formData == old(formData)
      ensures !confirmed ==> editingDeliveryBoy == old(editingDeliveryBoy) && showForm == old(showForm)
      ensures confirmed && old(editingDeliveryBoy).Some? ==>
        deliveryBoys == UpdateBoys(old(deliveryBoys), old(editingDeliveryBoy).value, old(formData))
      ensures confirmed && old(editingDeliveryBoy).None? ==>
        deliveryBoys == CreateBoy(old(deliveryBoys), old(formData), newId)
      ensures confirmed ==> formData == BlankForm && editingDeliveryBoy == None && !showForm
    {
      if confirmed {
        match editingDeliveryBoy {
          case Some(e) => deliveryBoys := UpdateBoys(deliveryBoys, e, formData);
          case None => deliveryBoys := CreateBoy(deliveryBoys, formData, newId);
        }
        ResetForm();
      }
    }

    /** `handleEdit`. */
    method HandleEdit(boy: Boy)
      modifies this`editingDeliveryBoy, this`formData, this`showForm
      ensures editingDeliveryBoy == Some(boy) && formData == EditForm(boy) && showForm
    {
      editingDeliveryBoy := Some(boy);
      formData := EditForm(boy);
      showForm := true;
    }

    /** The "Add New Delivery Boy" button: it opens the form as it stands, so the
        form, the edit marker and the list keep their values. */
    method ShowAddForm()
      modifies this`showForm
      ensures showForm
    {
      showForm := true;
    }

    /** `handleDelete`. */
    method HandleDelete(confirmed: bool, boyId: int)
      modifies this`deliveryBoys
      ensures deliveryBoys == if confirmed then DeleteBoy(old(deliveryBoys), boyId) else old(deliveryBoys)
    {
      if confirmed {
        deliveryBoys := DeleteBoy(deliveryBoys, boyId);
      }
    }

    /** The photo chosen in the form, once read as a data URL, replaces `image`
        and nothing else. */
    method ImageLoaded(dataUrl: string)
      modifies this`formData
      ensures formData == old(formData).(image := Some(dataUrl))
    {
      formData := formData.(image := Some(dataUrl));
    }

    /** `resetForm`: blanks, status 'active', image null, no edit, form hidden. */
    method ResetForm()
      modifies this`formData, this`editingDeliveryBoy, this`showForm
      ensures formData == BlankForm && editingDeliveryBoy == None && !showForm
    {
      formData := BlankForm;
      editingDeliveryBoy := None;
      showForm := false;
    }

    function CurrentDeliveryBoys(): seq<Boy>
      reads this
    {
      Paging.PageOf(deliveryBoys, currentPage)
    }

    method PreviousPage()
      modifies this`currentPage
      ensures currentPage == Paging.PreviousPage(old(currentPage))
    {
      currentPage := Paging.PreviousPage(currentPage);
    }

    /** The Next button, as written: `Math.min(prev + 1, totalPages)`. */
    method NextPage()
      modifies this`currentPage
      ensures currentPage == Paging.NextPageAsWritten(old(currentPage), Paging.TotalPages(|deliveryBoys|))
    {
      currentPage := Paging.NextPageAsWritten(currentPage, Paging.TotalPages(|deliveryBoys|));
    }
  }
}

=== FILE: orders.dfy ===
/** The Orders panel (src/components/Orders.jsx): an in-memory list of orders
    and, beside it, a small list of delivery boys, both changed only after a
    confirmation dialog; a per-customer order history; CSV export; paging. */
module Orders {
  import opened Collections
  import opened Text
  import Paging

  /** A form-bound JavaScript value that is either still the number of the
      seed data or the text typed into an input. */
  datatype Scalar = Num(n: int) | Str(s: string)

  /** How a template literal prints the value. */
  function Show(v: Scalar): string
  {
    match v
    case Num(n) => IntToString(n)
    case Str(s) => s
  }

  /** The order form (`formData`); an order record is exactly these fields plus
      `id` and `date`, as `{ ...formData, id, date }` builds it. */
  datatype OrderForm = OrderForm(
    customer: string, mobile: string, product: string, amount: Scalar,
    quantity: int, status: string, deliveryBoy: string, address: string)

  datatype Order = Order(id: int, date: string, fields: OrderForm)

  const BlankOrderForm := OrderForm("", "", "", Str(""), 1, "pending", "", "")

  function OrderId(o: Order): int { o.id }

  /** Update: every order whose id equals the edited order's id becomes the form
      fields with the edited order's id and date; the rest are untouched. */
  function UpdateOrders(orders: seq<Order>, editing: Order, form: OrderForm): (r: seq<Order>)
    ensures |r| == |orders|
    ensures forall i :: 0 <= i < |orders| && orders[i].id == editing.id ==>
      r[i].id == editing.id && r[i].date == editing.date && r[i].fields == form
    ensures forall i :: 0 <= i < |orders| && orders[i].id != editing.id ==> r[i] == orders[i]
  {
    MapReplace(orders, (o: Order) => o.id == editing.id, Order(editing.id, editing.date, form))
  }

  /** Create: the old list is an unchanged prefix and the new order, with the
      fresh id and today's date, is last. */
  function CreateOrder(orders: seq<Order>, form: OrderForm, newId: int, today: string): (r: seq<Order>)
    ensures |r| == |orders| + 1
    ensures r[..|orders|] == orders
    ensures r[|orders|] == Order(newId, today, form)
  {
    orders + [Order(newId, today, form)]
  }

  /** Delete: every order with the id goes; the others stay, in order. */
  function DeleteOrder(orders: seq<Order>, id: int): (r: seq<Order>)
    ensures forall i :: 0 <= i < |r| ==> r[i].id != id
    ensures forall i :: 0 <= i < |orders| && orders[i].id != id ==> orders[i] in r
  {
    var r := Filter(orders, (o: Order) => o.id != id);
    forall i | 0 <= i < |orders| && orders[i].id != id ensures orders[i] in r {
      FilterMember(orders, (o: Order) => o.id != id, orders[i]);
    }
    r
  }

  /** Deleting an id that no order has is a no-op. */
  lemma DeleteMissingIdIsNoOp(orders: seq<Order>, id: int)
    requires forall i :: 0 <= i < |orders| ==> orders[i].id != id
    ensures DeleteOrder(orders, id) == orders
  {
    FilterKeepsAll(orders, (o: Order) => o.id != id);
  }

  /** Deleting keeps relative order: deleting from a concatenation is deleting
      from each part. */
  lemma DeleteKeepsOrder(a: seq<Order>, b: seq<Order>, id: int)
    ensures DeleteOrder(a + b, id) == DeleteOrder(a, id) + DeleteOrder(b, id)
  {
    FilterAppend(a, b, (o: Order) => o.id != id);
  }

  /** Ids stay unique under update, under delete, and under create with a
      fresh id (the source draws ids from the clock and never checks them). */
  lemma OrderIdsStayUnique(orders: seq<Order>, editing: Order, form: OrderForm, id: int, newId: int, today: string)
    requires UniqueIds(orders, OrderId)
    requires forall i :: 0 <= i < |orders| ==> orders[i].id != newId
    ensures UniqueIds(UpdateOrders(orders, editing, form), OrderId)
    ensures UniqueIds(DeleteOrder(orders, id), OrderId)
    ensures UniqueIds(CreateOrder(orders, form, newId, today), OrderId)
  {
    var u := UpdateOrders(orders, editing, form);
    forall i, j | 0 <= i < j < |u| ensures u[i].id != u[j].id {
      assert u[i].id == orders[i].id && u[j].id == orders[j].id;
    }
    FilterKeepsUnique(orders, (o: Order) => o.id != id, OrderId);
    AppendKeepsUnique(orders, Order(newId, today, form), OrderId);
  }

  /** `handleEdit`: the form is filled from the order. `mobile || ''`,
      `deliveryBoy || ''` and `address || ''` leave a string as it is, and the
      amount becomes its text (`amount.toString()`). */
  function EditForm(o: Order): (f: OrderForm)
    ensures Show(f.amount) == Show(o.fields.amount)
    ensures f.(amount := o.fields.amount) == o.fields
  {
    o.fields.(amount := Str(Show(o.fields.amount)))
  }

  // ---------------------------------------------------------------------------
  // Customer history (`showOrderDetails`)

  ghost predicate NewestFirst(xs: seq<Order>, stamp: string -> int)
  {
    forall i, j :: 0 <= i < j < |xs| ==> stamp(xs[i].date) >= stamp(xs[j].date)
  }

  /** Places `o` before the first order that is not newer than it. */
  function InsertNewestFirst(o: Order, sorted: seq<Order>, stamp: string -> int): (r: seq<Order>)
    ensures multiset(r) == multiset(sorted) + multiset{o}
  {
    if sorted == [] then [o]
    else if stamp(sorted[0].date) <= stamp(o.date) then [o] + sorted
    else
      assert sorted == [sorted[0]] + sorted[1..];
      [sorted[0]] + InsertNewestFirst(o, sorted[1..], stamp)
  }

  /** A newest-first list stays newest-first behind an order no older than
      any of its own. */
  lemma PrependKeepsNewestFirst(x: Order, xs: seq<Order>, stamp: string -> int)
    requires NewestFirst(xs, stamp)
    requires forall j :: 0 <= j < |xs| ==> stamp(xs[j].date) <= stamp(x.date)
    ensures NewestFirst([x] + xs, stamp)
  {
    var r := [x] + xs;
    forall i, j | 0 <= i < j < |r| ensures stamp(r[i].date) >= stamp(r[j].date) {
      assert r[j] == xs[j - 1];
      if i > 0 {
        assert r[i] == xs[i - 1];
      }
    }
  }

  /** Inserting keeps every date at or below a bound the list and the new
      order both respect. */
  lemma InsertBounded(o: Order, sorted: seq<Order>, stamp: string -> int, bound: int)
    requires forall j :: 0 <= j < |sorted| ==> stamp(sorted[j].date) <= bound
    requires stamp(o.date) <= bound
    ensures forall j :: 0 <= j < |InsertNewestFirst(o, sorted, stamp)| ==>
      stamp(InsertNewestFirst(o, sorted, stamp)[j].date) <= bound
  {
    var r := InsertNewestFirst(o, sorted, stamp);
    forall j | 0 <= j < |r| ensures stamp(r[j].date) <= bound {
      assert r[j] in multiset(r);
      if r[j] != o {
        assert r[j] in multiset(sorted);
        var k :| 0 <= k < |sorted| && sorted[k] == r[j];
      }
    }
  }

  lemma {:induction false} InsertKeepsNewestFirst(o: Order, sorted: seq<Order>, stamp: string -> int)
    requires NewestFirst(sorted, stamp)
    ensures NewestFirst(InsertNewestFirst(o, sorted, stamp), stamp)
  {
    if sorted == [] {
    } else if stamp(sorted[0].date) <= stamp(o.date) {
      PrependKeepsNewestFirst(o, sorted, stamp);
    } else {
      var tail := sorted[1..];
      InsertKeepsNewestFirst(o, tail, stamp);
      assert forall j :: 0 <= j < |tail| ==> tail[j] == sorted[j + 1];
      InsertBounded(o, tail, stamp, stamp(sorted[0].date));
      PrependKeepsNewestFirst(sorted[0], InsertNewestFirst(o, tail, stamp), stamp);
    }
  }

  /** `.sort((a, b) => new Date(b.date) - new Date(a.date))`, where `stamp`
      stands for the time value `new Date(...)` gives a date string. */
  function SortNewestFirst(xs: seq<Order>, stamp: string -> int): (r: seq<Order>)
    ensures multiset(r) == multiset(xs)
  {
    if xs == [] then []
    else
      assert xs == [xs[0]] + xs[1..];
      InsertNewestFirst(xs[0], SortNewestFirst(xs[1..], stamp), stamp)
  }

  /** The sort orders newest first. */
  lemma {:induction false} SortIsNewestFirst(xs: seq<Order>, stamp: string -> int)
    ensures NewestFirst(SortNewestFirst(xs, stamp), stamp)
  {
    if xs != [] {
      SortIsNewestFirst(xs[1..], stamp);
      InsertKeepsNewestFirst(xs[0], SortNewestFirst(xs[1..], stamp), stamp);
    }
  }

  /** The history shown for an order: the orders of the same customer, newest first. */
  function CustomerHistory(orders: seq<Order>, selected: Order, stamp: string -> int): seq<Order>
  {
    SortNewestFirst(Filter(orders, (o: Order) => o.fields.customer == selected.fields.customer), stamp)
  }

  /** The history holds exactly the orders with the selected order's customer
      name, each as often as in the list, newest first. */
  lemma CustomerHistoryIsThatCustomersOrders(orders: seq<Order>, selected: Order, stamp: string -> int, x: Order)
    ensures NewestFirst(CustomerHistory(orders, selected, stamp), stamp)
    ensures x in CustomerHistory(orders, selected, stamp) <==>
      x in orders && x.fields.customer == selected.fields.customer
    ensures x.fields.customer == selected.fields.customer ==>
      multiset(CustomerHistory(orders, selected, stamp))[x] == multiset(orders)[x]
  {
    var keep := (o: Order) => o.fields.customer == selected.fields.customer;
    var f := Filter(orders, keep);
    SortIsNewestFirst(f, stamp);
    FilterMember(orders, keep, x);
    assert x in CustomerHistory(orders, selected, stamp) <==> x in multiset(f);
    if x.fields.customer == selected.fields.customer {
      FilterCountsKept(orders, keep, x);
    }
  }

  /** A kept element occurs as often after filtering as before. */
  lemma {:induction false} FilterCountsKept<T>(xs: seq<T>, keep: T -> bool, x: T)
    requires keep(x)
    ensures multiset(Filter(xs, keep))[x] == multiset(xs)[x]
  {
    if xs != [] {
      FilterCountsKept(xs[1..], keep, x);
      assert xs == [xs[0]] + xs[1..];
    }
  }

  // ---------------------------------------------------------------------------
  // CSV export (`downloadExcel`)

  const OrdersCsvColumns := ["Order ID", "Customer", "Mobile", "Product", "Quantity", "Amount", "Status", "Delivery Boy", "Date"]

  /** The cells of one order's line: an empty mobile is written as
      'Not provided' and an empty delivery boy as 'Not assigned'. */
  function OrderCsvCells(o: Order): (cells: seq<string>)
    ensures |cells| == |OrdersCsvColumns|
  {
    var f := o.fields;
    [IntToString(o.id), f.customer, if f.mobile == "" then "Not provided" else f.mobile,
     f.product, IntToString(f.quantity), Show(f.amount), f.status,
     if f.deliveryBoy == "" then "Not assigned" else f.deliveryBoy, o.date]
  }

  /** One row of cells per order, in list order. */
  function OrdersCsvRows(orders: seq<Order>): (rows: seq<seq<string>>)
    ensures |rows| == |orders|
    ensures forall i :: 0 <= i < |orders| ==> rows[i] == OrderCsvCells(orders[i])
  {
    seq(|orders|, i requires 0 <= i < |orders| => OrderCsvCells(orders[i]))
  }

  /** The exported text: the header line, then one comma-joined line per order,
      nothing quoted or escaped. */
  function OrdersCsv(orders: seq<Order>): string
  {
    CsvTable(OrdersCsvColumns, OrdersCsvRows(orders))
  }

  lemma OrdersCsvColumnsSafe()
    ensures forall k :: 0 <= k < |OrdersCsvColumns| ==> CellSafe(OrdersCsvColumns[k])
  {
  }

  /** The free-text fields of an order hold no comma and no line break. */
  ghost predicate CsvSafe(o: Order)
  {
    var f := o.fields;
    CellSafe(f.customer) && CellSafe(f.mobile) && CellSafe(f.product) && CellSafe(Show(f.amount))
    && CellSafe(f.status) && CellSafe(f.deliveryBoy) && CellSafe(o.date)
  }

  lemma OrderCellsAreSafe(o: Order)
    requires CsvSafe(o)
    ensures forall k :: 0 <= k < |OrderCsvCells(o)| ==> CellSafe(OrderCsvCells(o)[k])
  {
    IntToStringIsCsvSafe(o.id);
    IntToStringIsCsvSafe(o.fields.quantity);
  }

  /** Read back line by line and cell by cell, an export of safe orders gives
      the column names and then, for order i, its id, customer, mobile (or
      'Not provided'), product, quantity, amount, status, delivery boy (or
      'Not assigned') and date. */
  lemma OrdersCsvReadsBack(orders: seq<Order>)
    requires |orders| >= 1
    requires forall i :: 0 <= i < |orders| ==> CsvSafe(orders[i])
    ensures |Split(OrdersCsv(orders), '\n')| == |orders| + 1
    ensures Split(Split(OrdersCsv(orders), '\n')[0], ',') == OrdersCsvColumns
    ensures forall i :: 0 <= i < |orders| ==>
      Split(Split(OrdersCsv(orders), '\n')[i + 1], ',') == OrderCsvCells(orders[i])
  {
    var cells := OrdersCsvRows(orders);
    forall i | 0 <= i < |orders| ensures forall k :: 0 <= k < |cells[i]| ==> CellSafe(cells[i][k]) {
      OrderCellsAreSafe(orders[i]);
    }
    OrdersCsvColumnsSafe();
    CsvTableReadsBack(OrdersCsvColumns, cells);
  }

  /** An empty list exports the header and a trailing line break only. */
  lemma EmptyOrdersCsv()
    ensures OrdersCsv([]) == Join(OrdersCsvColumns, ",") + "\n"
  {
  }

  /** Editing an order and saving the form untouched changes no line of the
      export, although the amount is now held as text. */
  lemma EditThenSaveKeepsCsv(orders: seq<Order>, o: Order)
    requires o in orders
    requires UniqueIds(orders, OrderId)
    ensures OrdersCsv(UpdateOrders(orders, o, EditForm(o))) == OrdersCsv(orders)
  {
    var u := UpdateOrders(orders, o, EditForm(o));
    forall i | 0 <= i < |orders| ensures OrderCsvCells(u[i]) == OrderCsvCells(orders[i]) {
      if orders[i].id == o.id {
        var k :| 0 <= k < |orders| && orders[k] == o;
        assert OrderId(orders[i]) == OrderId(orders[k]);
        assert i == k;
      }
    }
    assert OrdersCsvRows(u) == OrdersCsvRows(orders);
  }

  // ---------------------------------------------------------------------------
  // The delivery boys kept by the Orders panel

  datatype RiderForm = RiderForm(name: string, phone: string, status: string)

  /** A delivery boy of this panel: the form fields plus `id` and the `orders` counter. */
  datatype Rider = Rider(id: int, orders: int, fields: RiderForm)

  const BlankRiderForm := RiderForm("", "", "active")

  /** Update keeps the edited delivery boy's id and `orders` counter. */
  function UpdateRiders(riders: seq<Rider>, editing: Rider, form: RiderForm): (r: seq<Rider>)
    ensures |r| == |riders|
    ensures forall i :: 0 <= i < |riders| && riders[i].id == editing.id ==>
      r[i].id == editing.id && r[i].orders == editing.orders && r[i].fields == form
    ensures forall i :: 0 <= i < |riders| && riders[i].id != editing.id ==> r[i] == riders[i]
  {
    MapReplace(riders, (b: Rider) => b.id == editing.id, Rider(editing.id, editing.orders, form))
  }

  /** Create appends a delivery boy with `orders: 0`. */
  function CreateRider(riders: seq<Rider>, form: RiderForm, newId: int): (r: seq<Rider>)
    ensures |r| == |riders| + 1 && r[..|riders|] == riders
    ensures r[|riders|].id == newId && r[|riders|].orders == 0 && r[|riders|].fields == form
  {
    riders + [Rider(newId, 0, form)]
  }

  function DeleteRider(riders: seq<Rider>, id: int): (r: seq<Rider>)
    ensures forall i :: 0 <= i < |r| ==> r[i].id != id
    ensures forall i :: 0 <= i < |riders| && riders[i].id != id ==> riders[i] in r
  {
    var r := Filter(riders, (b: Rider) => b.id != id);
    forall i | 0 <= i < |riders| && riders[i].id != id ensures riders[i] in r {
      FilterMember(riders, (b: Rider) => b.id != id, riders[i]);
    }
    r
  }

  /** `handleEditDeliveryBoy` copies exactly name, phone and status. */
  function EditRiderForm(b: Rider): (f: RiderForm)
    ensures f.name == b.fields.name && f.phone == b.fields.phone && f.status == b.fields.status
  {
    b.fields
  }

  const SampleOrders := [
    Order(1, "2024-01-15", OrderForm("John Doe", "9876543210", "Fresh Milk", Num(60), 2, "pending", "Raj Kumar", "123 Main St")),
    Order(2, "2024-01-14", OrderForm("Jane Smith", "9876543211", "Greek Yogurt", Num(120), 1, "completed", "Amit Singh", "456 Oak Ave")),
    Order(3, "2024-01-13", OrderForm("John Doe", "9876543210", "Pure Ghee", Num(800), 1, "shipped", "Suresh Yadav", "123 Main St")),
    Order(4, "2024-01-12", OrderForm("Alice Brown", "9876543213", "Paneer", Num(300), 1, "cancelled", "", "321 Elm St")),
    Order(5, "2024-01-10", OrderForm("John Doe", "9876543210", "Buttermilk", Num(40), 3, "completed", "Raj Kumar", "123 Main St")),
    Order(6, "2024-01-08", OrderForm("Jane Smith", "9876543211", "Fresh Milk", Num(90), 3, "completed", "Amit Singh", "456 Oak Ave")),
    Order(7, "2024-01-05", OrderForm("John Doe", "9876543210", "Greek Yogurt", Num(240), 2, "completed", "Raj Kumar", "123 Main St")),
    Order(8, "2024-01-03", OrderForm("Bob Johnson", "9876543212", "Fresh Milk", Num(120), 4, "completed", "Suresh Yadav", "789 Pine Rd")),
    Order(9, "2024-01-01", OrderForm("Jane Smith", "9876543211", "Paneer", Num(450), 1, "shipped", "Amit Singh", "456 Oak Ave")),
    Order(10, "2023-12-28", OrderForm("John Doe", "9876543210", "Heavy Cream", Num(180), 2, "completed", "Raj Kumar", "123 Main St"))
  ]

  const SampleRiders := [
    Rider(1, 15, RiderForm("Raj Kumar", "9876543210", "active")),
    Rider(2, 12, RiderForm("Amit Singh", "9876543211", "active")),
    Rider(3, 8, RiderForm("Suresh Yadav", "9876543212", "inactive"))
  ]

  /** The panel's component state and its handlers. `confirmed` is the answer
      to the confirmation dialog; `newId` and `today` stand for `Date.now()`
      and the current date. */
  class OrdersPanel {
    var orders: seq<Order>
    var deliveryBoys: seq<Rider>
    var showForm: bool
    var editingOrder: Option<Order>
    var showDeliveryForm: bool
    var editingDeliveryBoy: Option<Rider>
    var deliveryFormData: RiderForm
    var formData: OrderForm
    var currentPage: int

    constructor ()
      ensures orders == SampleOrders && deliveryBoys == SampleRiders
      ensures !showForm && editingOrder == None && formData == BlankOrderForm
      ensures !showDeliveryForm && editingDeliveryBoy == None && deliveryFormData == BlankRiderForm
      ensures currentPage == 1
    {
      orders := SampleOrders;
      deliveryBoys := SampleRiders;
      showForm := false;
      editingOrder := None;
      showDeliveryForm := false;
      editingDeliveryBoy := None;
      deliveryFormData := BlankRiderForm;
      formData := BlankOrderForm;
      currentPage := 1;
    }

    /** `handleSubmit`: nothing changes unless confirmed; then update or create,
        and reset the form. */
    method HandleSubmit(confirmed: bool, newId: int, today: string)
      modifies this`orders, this`formData, this`editingOrder, this`showForm
      ensures !confirmed ==> orders == old(orders) && formData == old(formData)
      ensures !confirmed ==> editingOrder == old(editingOrder) && showForm == old(showForm)
      ensures confirmed && old(editingOrder).Some? ==>
        orders == UpdateOrders(old(orders), old(editingOrder).value, old(formData))
      ensures confirmed && old(editingOrder).None? ==>
        orders == CreateOrder(old(orders), old(formData), newId, today)
      ensures confirmed ==> formData == BlankOrderForm && editingOrder == None && !showForm
    {
      if confirmed {
        match editingOrder {
          case Some(e) => orders := UpdateOrders(orders, e, formData);
          case None => orders := CreateOrder(orders, formData, newId, today);
        }
        ResetForm();
      }
    }

    /** `handleEdit`. */
    method HandleEdit(order: Order)
      modifies this`editingOrder, this`formData, this`showForm
      ensures editingOrder == Some(order) && formData == EditForm(order) && showForm
    {
      editingOrder := Some(order);
      formData := EditForm(order);
      showForm := true;
    }

    /** The "Add New Order" button: it opens the form as it stands, so the
        form, the edit marker and the list keep their values. */
    method ShowAddForm()
      modifies this`showForm
      ensures showForm
    {
      showForm := true;
    }

    /** `handleDelete`. */
    method HandleDelete(confirmed: bool, orderId: int)
      modifies this`orders
      ensures orders == if confirmed then DeleteOrder(old(orders), orderId) else old(orders)
    {
      if confirmed {
        orders := DeleteOrder(orders, orderId);
      }
    }

    /** `resetForm`. */
    method ResetForm()
      modifies this`formData, this`editingOrder, this`showForm
      ensures formData == BlankOrderForm && editingOrder == None && !showForm
    {
      formData := BlankOrderForm;
      editingOrder := None;
      showForm := false;
    }

    /** `handleDeliverySubmit`: update keeps id and `orders`; create sets `orders` to 0. */
    method HandleDeliverySubmit(confirmed: bool, newId: int)
      modifies this`deliveryBoys, this`deliveryFormData, this`editingDeliveryBoy, this`showDeliveryForm
      ensures !confirmed ==> deliveryBoys == old(deliveryBoys) && deliveryFormData == old(deliveryFormData)
      ensures !confirmed ==> editingDeliveryBoy == old(editingDeliveryBoy) && showDeliveryForm == old(showDeliveryForm)
      ensures confirmed && old(editingDeliveryBoy).Some? ==>
        deliveryBoys == UpdateRiders(old(deliveryBoys), old(editingDeliveryBoy).value, old(deliveryFormData))
      ensures confirmed && old(editingDeliveryBoy).None? ==>
        deliveryBoys == CreateRider(old(deliveryBoys), old(deliveryFormData), newId)
      ensures confirmed ==>
        deliveryFormData == BlankRiderForm && editingDeliveryBoy == None && !showDeliveryForm
    {
      if confirmed {
        match editingDeliveryBoy {
          case Some(e) => deliveryBoys := UpdateRiders(deliveryBoys, e, deliveryFormData);
          case None => deliveryBoys := CreateRider(deliveryBoys, deliveryFormData, newId);
        }
        ResetDeliveryForm();
      }
    }

    /** `handleEditDeliveryBoy`. */
    method HandleEditDeliveryBoy(boy: Rider)
      modifies this`editingDeliveryBoy, this`deliveryFormData, this`showDeliveryForm
      ensures editingDeliveryBoy == Some(boy) && deliveryFormData == EditRiderForm(boy) && showDeliveryForm
    {
      editingDeliveryBoy := Some(boy);
      deliveryFormData := EditRiderForm(boy);
      showDeliveryForm := true;
    }

    /** `handleDeleteDeliveryBoy`. */
    method HandleDeleteDeliveryBoy(confirmed: bool, boyId: int)
      modifies this`deliveryBoys
      ensures deliveryBoys == if confirmed then DeleteRider(old(deliveryBoys), boyId) else old(deliveryBoys)
    {
      if confirmed {
        deliveryBoys := DeleteRider(deliveryBoys, boyId);
      }
    }

    /** `resetDeliveryForm`. */
    method ResetDeliveryForm()
      modifies this`deliveryFormData, this`editingDeliveryBoy, this`showDeliveryForm
      ensures deliveryFormData == BlankRiderForm && editingDeliveryBoy == None && !showDeliveryForm
    {
      deliveryFormData := BlankRiderForm;
      editingDeliveryBoy := None;
      showDeliveryForm := false;
    }

    /** The orders shown on the current page. */
    function CurrentOrders(): seq<Order>
      reads this
    {
      Paging.PageOf(orders, currentPage)
    }

    /** The Previous button. */
    method PreviousPage()
      modifies this`currentPage
      ensures currentPage == Paging.PreviousPage(old(currentPage))
    {
      currentPage := Paging.PreviousPage(currentPage);
    }

    /** The Next button, as written: with no orders it moves to page 0. */
    method NextPage()
      modifies this`currentPage
      ensures currentPage == Paging.NextPageAsWritten(old(currentPage), Paging.TotalPages(|orders|))
    {
      currentPage := Paging.NextPageAsWritten(currentPage, Paging.TotalPages(|orders|));
    }
  }
}

=== FILE: paging.dfy ===
/** Ten-records-per-page slicing and the Previous/Next buttons shared by the
    Orders, DeliveryBoy, Users and Products panels:
      totalPages = Math.ceil(list.length / itemsPerPage)
      startIndex = (currentPage - 1) * itemsPerPage
      shown      = list.slice(startIndex, startIndex + itemsPerPage)
    with Previous setting max(page - 1, 1) and Next min(page + 1, totalPages). */
module Paging {

  const ItemsPerPage: nat := 10

  function Min(a: int, b: int): int { if a <= b then a else b }
  function Max(a: int, b: int): int { if a >= b then a else b }

  /** How `Array.prototype.slice` resolves one index against length `n`:
      a negative index counts from the end, and the result is clamped to [0, n]. */
  function SliceIndex(k: int, n: nat): (r: nat)
    ensures r <= n
    ensures 0 <= k ==> r == Min(k, n)
  {
    if k < 0 then (if n + k < 0 then 0 else n + k) else if k > n then n else k
  }

  /** `xs.slice(start, end)`. */
  function JsSlice<T>(xs: seq<T>, start: int, end: int): (r: seq<T>)
    ensures |r| <= |xs|
    ensures 0 <= start <= end ==> r == xs[Min(start, |xs|)..Min(end, |xs|)]
    ensures start >= |xs| ==> r == []
  {
    var a, b := SliceIndex(start, |xs|), SliceIndex(end, |xs|);
    if a < b then xs[a..b] else []
  }

  /** `Math.ceil(n / itemsPerPage)`: the least page count whose pages hold all n records. */
  function TotalPages(n: nat): (r: nat)
    ensures r * ItemsPerPage >= n
    ensures r > 0 ==> (r - 1) * ItemsPerPage < n
    ensures r == 0 <==> n == 0
  {
    (n + ItemsPerPage - 1) / ItemsPerPage
  }

  /** The records shown on page `page` (1-based; the page number is not clamped). */
  function PageOf<T>(xs: seq<T>, page: int): (r: seq<T>)
    ensures |r| <= ItemsPerPage
    ensures page >= 1 ==>
      r == xs[Min((page - 1) * ItemsPerPage, |xs|)..Min(page * ItemsPerPage, |xs|)]
    ensures page == 0 ==> r == []
  {
    var start := (page - 1) * ItemsPerPage;
    JsSlice(xs, start, start + ItemsPerPage)
  }

  /** A page holds records exactly when it lies in 1..totalPages (the buttons
      never produce a negative page). */
  lemma PageNonEmpty<T>(xs: seq<T>, page: int)
    requires page >= 0
    ensures PageOf(xs, page) != [] <==> 1 <= page <= TotalPages(|xs|)
  {
    var n := |xs|;
    if 1 <= page <= TotalPages(n) {
      assert (page - 1) * ItemsPerPage < n;
    } else if page > TotalPages(n) {
      assert (page - 1) * ItemsPerPage >= TotalPages(n) * ItemsPerPage >= n;
    }
  }

  /** Record i is shown on page i / 10 + 1 at row i % 10: no record is skipped. */
  lemma RecordOnItsPage<T>(xs: seq<T>, i: nat)
    requires i < |xs|
    ensures 1 <= i / ItemsPerPage + 1 <= TotalPages(|xs|)
    ensures i % ItemsPerPage < |PageOf(xs, i / ItemsPerPage + 1)|
    ensures PageOf(xs, i / ItemsPerPage + 1)[i % ItemsPerPage] == xs[i]
  {
    var p := i / ItemsPerPage + 1;
    assert (p - 1) * ItemsPerPage + i % ItemsPerPage == i;
  }

  /** Pages 1..k laid end to end. */
  function PagesUpTo<T>(xs: seq<T>, k: nat): seq<T>
  {
    if k == 0 then [] else PagesUpTo(xs, k - 1) + PageOf(xs, k)
  }

  lemma {:induction false} PagesUpToPrefix<T>(xs: seq<T>, k: nat)
    ensures PagesUpTo(xs, k) == xs[..Min(k * ItemsPerPage, |xs|)]
  {
    if k > 0 {
      PagesUpToPrefix(xs, k - 1);
      var a, b := Min((k - 1) * ItemsPerPage, |xs|), Min(k * ItemsPerPage, |xs|);
      assert xs[..a] + xs[a..b] == xs[..b];
    }
  }

  /** The pages 1..totalPages partition the list: together, in order, they are
      exactly the list, with no gap and no overlap. */
  lemma PagesPartition<T>(xs: seq<T>)
    ensures PagesUpTo(xs, TotalPages(|xs|)) == xs
  {
    PagesUpToPrefix(xs, TotalPages(|xs|));
  }

  /** Previous: `Math.max(prev - 1, 1)`. */
  function PreviousPage(page: int): (r: int)
    ensures r >= 1
    ensures page > 1 ==> r == page - 1
    ensures page <= 1 ==> r == 1
  {
    Max(page - 1, 1)
  }

  /** Next exactly as written: `Math.min(prev + 1, totalPages)`. It never
      goes past the last page, but with no pages at all it gives page 0. */
  function NextPageAsWritten(page: int, totalPages: nat): (r: int)
    ensures r <= totalPages && r <= page + 1
    ensures r == page + 1 || r == totalPages
  {
    Min(page + 1, totalPages)
  }

  /** With an empty list the Next button is enabled (1 !== 0) and moves the
      panel to page 0, and page 0 shows nothing even once records exist. */
  lemma NextOnEmptyListLeavesPageZero<T>(xs: seq<T>)
    ensures NextPageAsWritten(1, TotalPages(0)) == 0
    ensures PageOf(xs, NextPageAsWritten(1, TotalPages(0))) == []
  {
  }

  /** Next as intended: never past the last page and never below page 1. */
  function NextPage(page: int, totalPages: nat): (r: int)
    ensures r >= 1
    ensures totalPages >= 1 ==> r == NextPageAsWritten(page, totalPages) || (page < 1 && r == 1)
    ensures 1 <= page < totalPages ==> r == page + 1
    ensures 1 <= page && totalPages <= page ==> r == Max(totalPages, 1)
  {
    Max(Min(page + 1, totalPages), 1)
  }

  /** As written, Next keeps a page in range whenever the list has records:
      from a page in 1..totalPages it leads to a page in 1..totalPages, and
      there it agrees with the intended rule. */
  lemma NextAsWrittenInRange(page: int, totalPages: nat)
    requires 1 <= page <= totalPages
    ensures 1 <= NextPageAsWritten(page, totalPages) <= totalPages
    ensures NextPageAsWritten(page, totalPages) == NextPage(page, totalPages)
  {
  }

  /** Paging stays in range: from a page in 1..max(totalPages, 1), both buttons
      lead to a page in the same range. */
  lemma ButtonsKeepPageInRange(page: int, totalPages: nat)
    requires 1 <= page <= Max(totalPages, 1)
    ensures 1 <= PreviousPage(page) <= Max(totalPages, 1)
    ensures 1 <= NextPage(page, totalPages) <= Max(totalPages, 1)
  {
  }
}

=== FILE: payment.dfy ===
/** The Payments panel (src/components/Payment.jsx): the payments stored in
    the browser (oldest first) shown latest first, deletion after a
    confirmation dialog, and the running total. */
module Payments {
  import opened Collections

  /** A stored payment; only the id and the total take part in the logic. */
  datatype Payment = Payment(id: int, customer: string, total: int)

  function PaymentTotal(p: Payment): int { p.total }

  /** The array `payments.reverse()` and `updatedPayments.reverse()` work on. */
  method ToArray(xs: seq<Payment>) returns (a: array<Payment>)
    ensures fresh(a) && a[..] == xs
  {
    a := new Payment[|xs|](i requires 0 <= i < |xs| => xs[i]);
  }

  /** The panel's state: `storage` is the parsed 'payments' entry of the
      browser storage, `paymentHistory` the list on screen, `notified` counts
      the calls of the optional `onPaymentUpdate` callback (present when
      `hasListener`) and `events` the 'paymentUpdate' window events. */
  class PaymentPanel {
    var storage: seq<Payment>
    var paymentHistory: seq<Payment>
    var notified: nat
    var events: nat
    const hasListener: bool

    /** The screen shows the stored list latest first. */
    ghost predicate Valid()
      reads this
    {
      paymentHistory == Reverse(storage)
    }

    constructor (stored: seq<Payment>, listener: bool)
      ensures storage == stored && paymentHistory == [] && notified == 0 && events == 0
      ensures hasListener == listener
    {
      storage := stored;
      paymentHistory := [];
      notified := 0;
      events := 0;
      hasListener := listener;
    }

    /** `loadPaymentHistory`: the stored array reversed in place, latest first. */
    method LoadPaymentHistory()
      modifies this`paymentHistory
      ensures paymentHistory == Reverse(storage)
      ensures Valid()
    {
      var a := ToArray(storage);
      ReverseInPlace(a);
      paymentHistory := a[..];
    }

    /** `deletePayment`: the shown list without the id, reversed back into
        storage order and stored; listeners are told and the list reloaded. */
    method DeletePayment(confirmed: bool, paymentId: int)
      modifies this`storage, this`paymentHistory, this`notified, this`events
      ensures !confirmed ==> storage == old(storage) && paymentHistory == old(paymentHistory)
      ensures !confirmed ==> notified == old(notified) && events == old(events)
      ensures confirmed ==> storage == Reverse(Filter(old(paymentHistory), (p: Payment) => p.id != paymentId))
      ensures confirmed ==> old(Valid()) ==> storage == Filter(old(storage), (p: Payment) => p.id != paymentId)
      ensures confirmed ==> Valid()
      ensures confirmed ==> notified == old(notified) + (if hasListener then 1 else 0) && events == old(events) + 1
    {
      if confirmed {
        var keep := (p: Payment) => p.id != paymentId;
        var updated := Filter(paymentHistory, keep);
        var a := ToArray(updated);
        ReverseInPlace(a);
        storage := a[..];
        if old(Valid()) {
          FilterReverse(old(storage), keep);
          ReverseReverse(Filter(old(storage), keep));
        }
        if hasListener {
          notified := notified + 1;
        }
        events := events + 1;
        LoadPaymentHistory();
      }
    }

    /** `getTotalPayments`: the sum of the shown totals. */
    function TotalPayments(): int
      reads this
    {
      SumBy(paymentHistory, PaymentTotal)
    }

    /** The shown total is the total of everything stored. */
    lemma TotalIsStoredTotal()
      requires Valid()
      ensures TotalPayments() == SumBy(storage, PaymentTotal)
    {
      SumByReverse(storage, PaymentTotal);
    }
  }

  /** A delete removes exactly the payments with the id: a stored payment
      survives it precisely when its id differs. */
  lemma DeleteRemovesExactlyThatId(stored: seq<Payment>, paymentId: int, p: Payment)
    ensures p in Filter(stored, (q: Payment) => q.id != paymentId) <==> p in stored && p.id != paymentId
  {
    FilterMember(stored, (q: Payment) => q.id != paymentId, p);
  }

  /** Deleting an id no payment has writes the stored list back unchanged. */
  lemma DeleteMissingIdKeepsStorage(stored: seq<Payment>, paymentId: int)
    requires forall i :: 0 <= i < |stored| ==> stored[i].id != paymentId
    ensures Filter(stored, (q: Payment) => q.id != paymentId) == stored
  {
    FilterKeepsAll(stored, (q: Payment) => q.id != paymentId);
  }
}

=== FILE: products.dfy ===
/** The Products panel (src/components/Products.jsx): the product list comes
    from the server (or three sample products), saves and deletes go through
    the server and reload the list, the form holds up to three photos, and
    the cards show an offer price only when it undercuts the price. */
module Products {
  import opened Collections
  import opened Text
  import Paging

  /** A product as the server sends it; `offerPrice`, `description` and
      `images` may be absent. */
  datatype Product = Product(
    id: string, name: string, category: string, price: int, offerPrice: Option<int>,
    stock: int, unit: string, description: Option<string>, status: string,
    images: Option<seq<string>>)

  /** The form (`formData`): every field is text except the photo list. */
  datatype ProductForm = ProductForm(
    name: string, category: string, price: string, offerPrice: string, stock: string,
    unit: string, description: string, status: string, images: seq<string>)

  const BlankForm := ProductForm("", "milk", "", "", "", "liter", "", "available", [])

  /** The most photos one upload may select. */
  const MaxImages := 3

  /** What a `productApi.getAll()` produced: the request failed, or the data. */
  datatype FetchOutcome = Failed | Loaded(data: seq<Product>)

  /** The requests the panel sends through `productApi`. */
  datatype Request =
    | UpdateProduct(id: string, body: ProductForm)
    | CreateProduct(body: ProductForm)
    | DeleteProduct(id: string)

  const SampleProducts := [
    Product("1", "Fresh Milk", "milk", 60, Some(55), 50, "liter", Some("Pure cow milk"), "available", Some([])),
    Product("2", "Greek Yogurt", "dahi", 120, Some(110), 30, "kg", Some("Thick creamy yogurt"), "available", Some([])),
    Product("3", "Pure Ghee", "ghee", 800, Some(750), 20, "kg", Some("Traditional clarified butter"), "available", Some([]))
  ]

  /** `fetchProducts`: whatever list the server sends (even an empty one), or
      the three sample products when the request fails. */
  function ChooseProducts(outcome: FetchOutcome): (r: seq<Product>)
    ensures outcome.Loaded? ==> r == outcome.data
    ensures outcome.Failed? ==> r == SampleProducts && |r| == 3
  {
    match outcome
    case Loaded(data) => data
    case Failed => SampleProducts
  }

  /** The save request: an update of the edited product's id, or a create. */
  function SaveRequest(editing: Option<Product>, form: ProductForm): (r: Request)
    ensures editing.Some? <==> r.UpdateProduct?
    ensures r.UpdateProduct? ==> r.id == editing.value.id && r.body == form
    ensures r.CreateProduct? ==> r.body == form
  {
    match editing
    case Some(p) => UpdateProduct(p.id, form)
    case None => CreateProduct(form)
  }

  /** `product.offerPrice && product.offerPrice < product.price`: a present,
      non-zero offer below the price. */
  predicate ShowsOffer(p: Product)
  {
    p.offerPrice.Some? && p.offerPrice.value != 0 && p.offerPrice.value < p.price
  }

  /** The price a card shows as current: the offer when it is shown, the
      price otherwise. */
  function ShownPrice(p: Product): (r: int)
    ensures r <= p.price
    ensures r < p.price <==> ShowsOffer(p)
    ensures r != p.price ==> p.offerPrice == Some(r) && r != 0
  {
    if ShowsOffer(p) then p.offerPrice.value else p.price
  }

  /** A missing, zero, equal or higher offer is never shown; with it the card
      shows the plain price. */
  lemma NoDiscountShowsPlainPrice(p: Product)
    requires p.offerPrice.None? || p.offerPrice.value == 0 || p.offerPrice.value >= p.price
    ensures !ShowsOffer(p) && ShownPrice(p) == p.price
  {
  }

  /** `handleEdit`: price and stock as text, a missing offer price or
      description as '', a missing photo list as []. */
  function EditForm(p: Product): (f: ProductForm)
    ensures f.name == p.name && f.category == p.category && f.unit == p.unit && f.status == p.status
    ensures f.price == IntToString(p.price) && f.stock == IntToString(p.stock)
    ensures f.offerPrice == "" <==> p.offerPrice.None?
    ensures p.offerPrice.Some? ==> f.offerPrice == IntToString(p.offerPrice.value)
    ensures p.description.None? ==> f.description == ""
    ensures p.description.Some? ==> f.description == p.description.value
    ensures p.images.None? ==> f.images == []
    ensures p.images.Some? ==> f.images == p.images.value
  {
    ProductForm(
      p.name, p.category, IntToString(p.price),
      match p.offerPrice { case Some(o) => IntToString(o) case None => "" },
      IntToString(p.stock), p.unit,
      match p.description { case Some(d) => d case None => "" },
      p.status,
      match p.images { case Some(i) => i case None => [] })
  }

  /** The edit form tells two products' prices apart: equal text means an
      equal price, and likewise for stock and a present offer price. */
  lemma EditFormKeepsNumbers(p: Product, q: Product)
    ensures EditForm(p).price == EditForm(q).price <==> p.price == q.price
    ensures EditForm(p).stock == EditForm(q).stock <==> p.stock == q.stock
    ensures EditForm(p).offerPrice == EditForm(q).offerPrice <==> p.offerPrice == q.offerPrice
  {
    IntToStringInjective(p.price, q.price);
    IntToStringInjective(p.stock, q.stock);
    if p.offerPrice.Some? && q.offerPrice.Some? {
      IntToStringInjective(p.offerPrice.value, q.offerPrice.value);
    }
  }

  /** `images.filter((_, i) => i !== index)`: the photos at every position
      but `index`, in order, built from the back. */
  function WithoutIndex(images: seq<string>, index: int): (r: seq<string>)
    ensures |r| <= |images|
  {
    if images == [] then []
    else
      var last := |images| - 1;
      WithoutIndex(images[..last], index) + (if last != index then [images[last]] else [])
  }

  /** Removing an index in range drops exactly that photo and keeps the
      others in order; an index out of range keeps them all. */
  lemma {:induction false} WithoutIndexRemovesOne(images: seq<string>, index: int)
    ensures 0 <= index < |images| ==> WithoutIndex(images, index) == images[..index] + images[index + 1..]
    ensures (index < 0 || index >= |images|) ==> WithoutIndex(images, index) == images
  {
    if images != [] {
      var last := |images| - 1;
      WithoutIndexRemovesOne(images[..last], index);
      if index == last {
        assert images[..index] == images[..last];
        assert images[index + 1..] == [];
      } else if 0 <= index < last {
        assert images[..last][..index] == images[..index];
        assert images[..last][index + 1..] + [images[last]] == images[index + 1..];
      } else {
        assert images[..last] + [images[last]] == images;
      }
    }
  }

  /** Each removal takes one photo away, so the list never grows past three. */
  lemma RemovalKeepsAtMostThree(images: seq<string>, index: int)
    requires |images| <= MaxImages
    ensures |WithoutIndex(images, index)| <= MaxImages
    ensures 0 <= index < |images| ==> |WithoutIndex(images, index)| == |images| - 1
  {
    WithoutIndexRemovesOne(images, index);
  }

  const ProductsCsvColumns := ["Name", "Category", "Price", "Stock", "Unit", "Description", "Status"]

  /** The cells of one product's line: a missing description as ''. */
  function ProductCsvCells(p: Product): (cells: seq<string>)
    ensures |cells| == |ProductsCsvColumns|
    ensures cells[5] == (match p.description { case Some(d) => d case None => "" })
  {
    [p.name, p.category, IntToString(p.price), IntToString(p.stock), p.unit,
     match p.description { case Some(d) => d case None => "" }, p.status]
  }

  function ProductsCsvRows(products: seq<Product>): (rows: seq<seq<string>>)
    ensures |rows| == |products|
    ensures forall i :: 0 <= i < |products| ==> rows[i] == ProductCsvCells(products[i])
  {
    seq(|products|, i requires 0 <= i < |products| => ProductCsvCells(products[i]))
  }

  /** The exported text: the header line, then one comma-joined line per product. */
  function ProductsCsv(products: seq<Product>): string
  {
    CsvTable(ProductsCsvColumns, ProductsCsvRows(products))
  }

  lemma ProductsCsvColumnsSafe()
    ensures forall k :: 0 <= k < |ProductsCsvColumns| ==> CellSafe(ProductsCsvColumns[k])
  {
  }

  /** The free-text fields of a product hold no comma and no line break. */
  ghost predicate CsvSafe(p: Product)
  {
    CellSafe(p.name) && CellSafe(p.category) && CellSafe(p.unit) && CellSafe(p.status)
    && (p.description.Some? ==> CellSafe(p.description.value))
  }

  lemma ProductCellsAreSafe(p: Product)
    requires CsvSafe(p)
    ensures forall k :: 0 <= k < |ProductCsvCells(p)| ==> CellSafe(ProductCsvCells(p)[k])
  {
    IntToStringIsCsvSafe(p.price);
    IntToStringIsCsvSafe(p.stock);
  }

  /** Read back line by line and cell by cell, an export of safe products
      gives the column names and then, for product i, its name, category,
      price, stock, unit, description (or '') and status. */
  lemma ProductsCsvReadsBack(products: seq<Product>)
    requires |products| >= 1
    requires forall i :: 0 <= i < |products| ==> CsvSafe(products[i])
    ensures |Split(ProductsCsv(products), '\n')| == |products| + 1
    ensures Split(Split(ProductsCsv(products), '\n')[0], ',') == ProductsCsvColumns
    ensures forall i :: 0 <= i < |products| ==>
      Split(Split(ProductsCsv(products), '\n')[i + 1], ',') == ProductCsvCells(products[i])
  {
    var cells := ProductsCsvRows(products);
    forall i | 0 <= i < |products| ensures forall k :: 0 <= k < |cells[i]| ==> CellSafe(cells[i][k]) {
      ProductCellsAreSafe(products[i]);
    }
    ProductsCsvColumnsSafe();
    CsvTableReadsBack(ProductsCsvColumns, cells);
  }

  /** The panel's state. `requests` records what was sent to the server and
      `alerts` the error dialogs shown. */
  class ProductsPanel {
    var products: seq<Product>
    var showForm: bool
    var editingProduct: Option<Product>
    var loading: bool
    var formData: ProductForm
    var currentPage: int
    var requests: seq<Request>
    var alerts: seq<string>

    constructor ()
      ensures products == [] && !showForm && editingProduct == None && !loading
      ensures formData == BlankForm && currentPage == 1 && requests == [] && alerts == []
    {
      products := [];
      showForm := false;
      editingProduct := None;
      loading := false;
      formData := BlankForm;
      currentPage := 1;
      requests := [];
      alerts := [];
    }

    /** `fetchProducts`, given what the server answered. */
    method FetchProducts(outcome: FetchOutcome)
      modifies this`products, this`loading
      ensures products == ChooseProducts(outcome) && !loading
    {
      loading := true;
      products := ChooseProducts(outcome);
      loading := false;
    }

    /** `handleSubmit`: after confirmation, the update or create request; on
        success the list is reloaded and the form reset, on failure an error
        dialog and the form stays filled for another try. */
    method HandleSubmit(confirmed: bool, apiOk: bool, reloaded: FetchOutcome)
      modifies this`products, this`loading, this`formData, this`editingProduct, this`showForm
      modifies this`requests, this`alerts
      ensures !confirmed ==> requests == old(requests) && loading == old(loading) && alerts == old(alerts)
      ensures !confirmed || !apiOk ==> products == old(products) && formData == old(formData)
      ensures !confirmed || !apiOk ==> editingProduct == old(editingProduct) && showForm == old(showForm)
      ensures confirmed ==> requests == old(requests) + [SaveRequest(old(editingProduct), old(formData))]
      ensures confirmed ==> !loading
      ensures confirmed && apiOk ==> products == ChooseProducts(reloaded) && alerts == old(alerts)
      ensures confirmed && apiOk ==> formData == BlankForm && editingProduct == None && !showForm
      ensures confirmed && !apiOk ==> alerts == old(alerts) + ["Failed to save product. Please try again."]
    {
      if confirmed {
        loading := true;
        requests := requests + [SaveRequest(editingProduct, formData)];
        if apiOk {
          FetchProducts(reloaded);
          ResetForm();
        } else {
          alerts := alerts + ["Failed to save product. Please try again."];
        }
        loading := false;
      }
    }

    /** `handleEdit`. */
    method HandleEdit(product: Product)
      modifies this`editingProduct, this`formData, this`showForm
      ensures editingProduct == Some(product) && formData == EditForm(product) && showForm
    {
      editingProduct := Some(product);
      formData := EditForm(product);
      showForm := true;
    }

    /** The "Add New Product" button: it opens the form as it stands, so the
        form, the edit marker and the list keep their values. */
    method ShowAddForm()
      modifies this`showForm
      ensures showForm
    {
      showForm := true;
    }

    /** `handleDelete`: after confirmation, the delete request; on success the
        list is reloaded, on failure an error dialog. */
    method HandleDelete(confirmed: bool, apiOk: bool, productId: string, reloaded: FetchOutcome)
      modifies this`products, this`loading, this`requests, this`alerts
      ensures !confirmed ==> requests == old(requests) && loading == old(loading) && alerts == old(alerts)
      ensures !confirmed || !apiOk ==> products == old(products)
      ensures confirmed ==> requests == old(requests) + [DeleteProduct(productId)] && !loading
      ensures confirmed && apiOk ==> products == ChooseProducts(reloaded) && alerts == old(alerts)
      ensures confirmed && !apiOk ==> alerts == old(alerts) + ["Failed to delete product. Please try again."]
    {
      if confirmed {
        loading := true;
        requests := requests + [DeleteProduct(productId)];
        if apiOk {
          FetchProducts(reloaded);
        } else {
          alerts := alerts + ["Failed to delete product. Please try again."];
        }
        loading := false;
      }
    }

    /** `resetForm`. */
    method ResetForm()
      modifies this`formData, this`editingProduct, this`showForm
      ensures formData == BlankForm && editingProduct == None && !showForm
    {
      formData := BlankForm;
      editingProduct := None;
      showForm := false;
    }

    /** `handleImageUpload`: `files` are the selected photos as the data URLs
        they read to, and `readOk` says whether every read succeeded. More
        than three is refused with an error and nothing selected is ignored;
        otherwise the photos replace the form's list, in selection order. */
    method HandleImageUpload(files: seq<string>, readOk: bool)
      modifies this`formData, this`alerts
      ensures |files| > MaxImages ==> formData == old(formData)
      ensures |files| > MaxImages ==> alerts == old(alerts) + ["You can only upload maximum 3 images"]
      ensures |files| == 0 ==> formData == old(formData) && alerts == old(alerts)
      ensures 0 < |files| <= MaxImages && readOk ==> formData == old(formData).(images := files)
      ensures 0 < |files| <= MaxImages && readOk ==> alerts == old(alerts)
      ensures 0 < |files| <= MaxImages && !readOk ==> formData == old(formData)
      ensures 0 < |files| <= MaxImages && !readOk ==> alerts == old(alerts) + ["Failed to process images"]
      ensures |old(formData).images| <= MaxImages ==> |formData.images| <= MaxImages
    {
      if |files| > MaxImages {
        alerts := alerts + ["You can only upload maximum 3 images"];
        return;
      }
      if |files| == 0 {
        return;
      }
      if readOk {
        formData := formData.(images := files);
      } else {
        alerts := alerts + ["Failed to process images"];
      }
    }

    /** `removeImage`: the form's photos without the one at `index`. */
    method RemoveImage(index: int)
      modifies this`formData
      ensures formData == old(formData).(images := WithoutIndex(old(formData).images, index))
    {
      formData := formData.(images := WithoutIndex(formData.images, index));
    }

    function CurrentProducts(): seq<Product>
      reads this
    {
      Paging.PageOf(products, currentPage)
    }

    method PreviousPage()
      modifies this`currentPage
      ensures currentPage == Paging.PreviousPage(old(currentPage))
    {
      currentPage := Paging.PreviousPage(currentPage);
    }

    /** The Next button, as written: `Math.min(prev + 1, totalPages)`. */
    method NextPage()
      modifies this`currentPage
      ensures currentPage == Paging.NextPageAsWritten(old(currentPage), Paging.TotalPages(|products|))
    {
      currentPage := Paging.NextPageAsWritten(currentPage, Paging.TotalPages(|products|));
    }
  }
}

=== FILE: profile.dfy ===
/** The Profile page (src/components/Profile.jsx): the admin's name and email,
    edited in place and saved after a confirmation dialog, and a password
    change dialog whose validator checks its three fields in a fixed order. */
module Profile {
  import opened Collections
  import ChangePass

  /** The signed-in user as the session holds it; each field may be absent. */
  datatype SessionUser = SessionUser(name: Option<string>, email: Option<string>, role: Option<string>)

  /** `value || fallback` for an optional text: absent or empty gives the fallback. */
  function TextOr(v: Option<string>, fallback: string): (r: string)
    ensures v.Some? && v.value != "" ==> r == v.value
    ensures v.None? || v.value == "" ==> r == fallback
  {
    if v.Some? && v.value != "" then v.value else fallback
  }

  /** `profileData` as `handleCancel` and the first render build it from the
      session user (`user?.x || default`): name and email default to '', the
      role to 'admin'. */
  function ProfileFrom(user: Option<SessionUser>): (m: map<string, string>)
    ensures m.Keys == {"name", "email", "role"}
    ensures user.None? ==> m["name"] == "" && m["email"] == "" && m["role"] == "admin"
    ensures user.Some? ==> m["name"] == TextOr(user.value.name, "")
    ensures user.Some? ==> m["email"] == TextOr(user.value.email, "")
    ensures user.Some? ==> m["role"] == TextOr(user.value.role, "admin")
  {
    match user
    case None => map["name" := "", "email" := "", "role" := "admin"]
    case Some(u) => map["name" := TextOr(u.name, ""), "email" := TextOr(u.email, ""), "role" := TextOr(u.role, "admin")]
  }

  /** The role shown is never empty: a missing or empty role reads 'admin'. */
  lemma RoleNeverEmpty(user: Option<SessionUser>)
    ensures ProfileFrom(user)["role"] != ""
  {
  }

  /** What the password dialog's `preConfirm` returns: a validation message
      keeping the dialog open, or the two passwords to send. */
  datatype PreConfirm = Rejected(message: string) | Accepted(currentPassword: string, newPassword: string)

  const FillAllMessage := "Please fill all fields"
  const MismatchMessage := "New passwords do not match"
  const LengthMessage := "Password must be at least 6 characters"

  /** `preConfirm`: any empty field first, then a mismatch, then a new
      password shorter than six; otherwise exactly the current and new
      passwords. */
  function CheckPasswords(current: string, newPassword: string, confirm: string): (r: PreConfirm)
    ensures r.Accepted? <==> current != "" && newPassword == confirm && |newPassword| >= ChangePass.MinLength
    ensures r.Accepted? ==> r == Accepted(current, newPassword)
    ensures current == "" || newPassword == "" || confirm == "" ==> r == Rejected(FillAllMessage)
    ensures current != "" && newPassword != "" && confirm != "" && newPassword != confirm ==> r == Rejected(MismatchMessage)
    ensures current != "" && newPassword != "" && newPassword == confirm && |newPassword| < ChangePass.MinLength ==>
      r == Rejected(LengthMessage)
  {
    if current == "" || newPassword == "" || confirm == "" then Rejected(FillAllMessage)
    else if newPassword != confirm then Rejected(MismatchMessage)
    else if |newPassword| < ChangePass.MinLength then Rejected(LengthMessage)
    else Accepted(current, newPassword)
  }

  /** The dialog accepts exactly what the Change Password page's submit
      handler accepts, plus a non-empty current password, which that handler
      does not check (on that page the browser's `required` check does). */
  lemma DialogAgreesWithChangePassPage(current: string, newPassword: string, confirm: string)
    ensures CheckPasswords(current, newPassword, confirm).Accepted? <==>
      current != "" && ChangePass.Validate(ChangePass.PassForm(current, newPassword, confirm)).None?
  {
  }

  /** The requests the page sends. */
  datatype Request = PutProfile(body: map<string, string>) | PutPassword(currentPassword: string, newPassword: string)

  /** The page's state: `user` is the session user, `requests` what was sent
      and `alerts` the titles of the result dialogs. */
  class ProfilePage {
    const user: Option<SessionUser>
    var isEditing: bool
    var profileData: map<string, string>
    var requests: seq<Request>
    var alerts: seq<string>

    constructor (sessionUser: Option<SessionUser>)
      ensures user == sessionUser && !isEditing && profileData == ProfileFrom(sessionUser)
      ensures requests == [] && alerts == []
    {
      user := sessionUser;
      isEditing := false;
      profileData := ProfileFrom(sessionUser);
      requests := [];
      alerts := [];
    }

    /** `handleEdit`. */
    method HandleEdit()
      modifies this`isEditing
      ensures isEditing
    {
      isEditing := true;
    }

    /** `handleCancel`: leaves editing and restores the session user's values. */
    method HandleCancel()
      modifies this`isEditing, this`profileData
      ensures !isEditing && profileData == ProfileFrom(user)
    {
      isEditing := false;
      profileData := ProfileFrom(user);
    }

    /** `handleInputChange`: the input named `name` takes `value`; every other
        entry is unchanged. */
    method HandleInputChange(name: string, value: string)
      modifies this`profileData
      ensures name in profileData && profileData[name] == value
      ensures profileData.Keys == old(profileData).Keys + {name}
      ensures forall k :: k in old(profileData) && k != name ==> profileData[k] == old(profileData)[k]
    {
      profileData := profileData[name := value];
    }

    /** `handleSave`: after confirmation, the profile is sent; editing ends
        only when it was both confirmed and accepted by the server. */
    method HandleSave(confirmed: bool, apiOk: bool)
      modifies this`isEditing, this`requests, this`alerts
      ensures !confirmed ==> requests == old(requests) && alerts == old(alerts)
      ensures confirmed ==> requests == old(requests) + [PutProfile(profileData)]
      ensures isEditing == (old(isEditing) && !(confirmed && apiOk))
      ensures confirmed && apiOk ==> alerts == old(alerts) + ["Updated!"]
      ensures confirmed && !apiOk ==> alerts == old(alerts) + ["Error!"]
    {
      if confirmed {
        requests := requests + [PutProfile(profileData)];
        if apiOk {
          isEditing := false;
          alerts := alerts + ["Updated!"];
        } else {
          alerts := alerts + ["Error!"];
        }
      }
    }

    /** `handleChangePassword`: `entered` is what the user typed when closing
        the dialog with the confirm button, or None when cancelled. Entries
        `preConfirm` rejects never leave the dialog, so only accepted ones
        are sent. */
    method HandleChangePassword(entered: Option<ChangePass.PassForm>, apiOk: bool)
      modifies this`requests, this`alerts
      ensures entered.None? ==> requests == old(requests) && alerts == old(alerts)
      ensures entered.Some? ==>
        var check := CheckPasswords(entered.value.currentPassword, entered.value.newPassword, entered.value.confirmPassword);
        (check.Rejected? ==> requests == old(requests) && alerts == old(alerts)) &&
        (check.Accepted? ==> requests == old(requests) + [PutPassword(check.currentPassword, check.newPassword)]) &&
        (check.Accepted? ==> alerts == old(alerts) + [if apiOk then "Success!" else "Error!"])
    {
      if entered.Some? {
        var f := entered.value;
        var check := CheckPasswords(f.currentPassword, f.newPassword, f.confirmPassword);
        if check.Accepted? {
          requests := requests + [PutPassword(check.currentPassword, check.newPassword)];
          alerts := alerts + [if apiOk then "Success!" else "Error!"];
        }
      }
    }
  }
}

=== FILE: store.dfy ===
/** The Store panel (src/components/Store.jsx): three collections (stores,
    gift cards, coupons) behind tabs, one shared twelve-key form, and the
    coupon's store lookup. Records here are plain JavaScript objects whose key
    sets change with the form that built them, so they are modelled as maps
    from key to value; a missing key reads as `undefined`. */
module Stores {
  import opened Collections
  import opened Text

  /** The JavaScript values the panel stores in records and forms. */
  datatype Value = Undefined | Null | Num(n: int) | Str(s: string)

  type Obj = map<string, Value>

  /** Property access `o[k]`. */
  function Get(o: Obj, k: string): Value
  {
    if k in o then o[k] else Undefined
  }

  function IdOf(o: Obj): Value { Get(o, "id") }

  /** The text an input shows for a value: `v.toString()` for a number or a
      string, and '' for a missing one (`v?.toString() || ''`). */
  function FormText(v: Value): string
  {
    match v
    case Num(n) => IntToString(n)
    case Str(s) => s
    case _ => ""
  }

  predicate HasText(v: Value) { v.Num? || v.Str? }

  const GiftCardsTab := "giftcards"
  const CouponsTab := "coupons"
  const StoresTab := "stores"

  /** The full form `resetForm` restores and a create starts from. */
  const BlankForm: Obj := map[
    "code" := Str(""), "amount" := Str(""), "discount" := Str(""), "type" := Str("percentage"),
    "minAmount" := Str(""), "status" := Str("active"), "expiryDate" := Str(""), "storeId" := Str(""),
    "name" := Str(""), "location" := Str(""), "manager" := Str(""), "phone" := Str("")]

  /** `{ ...form, id, usedBy }`. */
  function GiftCardRecord(form: Obj, id: Value, usedBy: Value): (r: Obj)
    ensures r.Keys == form.Keys + {"id", "usedBy"}
    ensures IdOf(r) == id && Get(r, "usedBy") == usedBy
    ensures forall k :: k != "id" && k != "usedBy" ==> Get(r, k) == Get(form, k)
  {
    form["id" := id]["usedBy" := usedBy]
  }

  /** `{ ...form, id }`. */
  function PlainRecord(form: Obj, id: Value): (r: Obj)
    ensures r.Keys == form.Keys + {"id"}
    ensures IdOf(r) == id
    ensures forall k :: k != "id" ==> Get(r, k) == Get(form, k)
  {
    form["id" := id]
  }

  /** `items.map(item => item.id === id ? record : item)`. */
  function UpdateById(items: seq<Obj>, id: Value, record: Obj): (r: seq<Obj>)
    ensures |r| == |items|
    ensures forall i :: 0 <= i < |items| && IdOf(items[i]) == id ==> r[i] == record
    ensures forall i :: 0 <= i < |items| && IdOf(items[i]) != id ==> r[i] == items[i]
  {
    MapReplace(items, (o: Obj) => IdOf(o) == id, record)
  }

  /** `items.filter(item => item.id !== id)`. */
  function DeleteById(items: seq<Obj>, id: Value): (r: seq<Obj>)
    ensures forall i :: 0 <= i < |r| ==> IdOf(r[i]) != id
    ensures forall i :: 0 <= i < |items| && IdOf(items[i]) != id ==> items[i] in r
  {
    var r := Filter(items, (o: Obj) => IdOf(o) != id);
    forall i | 0 <= i < |items| && IdOf(items[i]) != id ensures items[i] in r {
      FilterMember(items, (o: Obj) => IdOf(o) != id, items[i]);
    }
    r
  }

  lemma DeleteKeepsOrder(a: seq<Obj>, b: seq<Obj>, id: Value)
    ensures DeleteById(a + b, id) == DeleteById(a, id) + DeleteById(b, id)
  {
    FilterAppend(a, b, (o: Obj) => IdOf(o) != id);
  }

  /** Gift-card submit. An update gives the matching cards every key of the
      form plus the edited card's id and `usedBy`; a create appends a card with
      the new id and `usedBy: null`. */
  function SubmitGiftCard(items: seq<Obj>, editing: Option<Obj>, form: Obj, newId: int): (r: seq<Obj>)
    ensures editing.Some? ==> |r| == |items| && forall i :: 0 <= i < |items| ==>
      if IdOf(items[i]) == IdOf(editing.value) then
        IdOf(r[i]) == IdOf(editing.value) && Get(r[i], "usedBy") == Get(editing.value, "usedBy") &&
        r[i].Keys == form.Keys + {"id", "usedBy"} &&
        forall k :: k != "id" && k != "usedBy" ==> Get(r[i], k) == Get(form, k)
      else r[i] == items[i]
    ensures editing.None? ==> |r| == |items| + 1 && r[..|items|] == items
    ensures editing.None? ==> IdOf(r[|items|]) == Num(newId) && Get(r[|items|], "usedBy") == Null
    ensures editing.None? ==> forall k :: k != "id" && k != "usedBy" ==> Get(r[|items|], k) == Get(form, k)
  {
    match editing
    case Some(e) => UpdateById(items, IdOf(e), GiftCardRecord(form, IdOf(e), Get(e, "usedBy")))
    case None => items + [GiftCardRecord(form, Num(newId), Null)]
  }

  /** Coupon and store submit: an update keeps only the id of the edited
      record, every other key comes from the form; a create appends the form
      with the new id. */
  function SubmitPlain(items: seq<Obj>, editing: Option<Obj>, form: Obj, newId: int): (r: seq<Obj>)
    ensures editing.Some? ==> |r| == |items| && forall i :: 0 <= i < |items| ==>
      if IdOf(items[i]) == IdOf(editing.value) then
        IdOf(r[i]) == IdOf(editing.value) && r[i].Keys == form.Keys + {"id"} &&
        forall k :: k != "id" ==> Get(r[i], k) == Get(form, k)
      else r[i] == items[i]
    ensures editing.None? ==> |r| == |items| + 1 && r[..|items|] == items
    ensures editing.None? ==> IdOf(r[|items|]) == Num(newId)
    ensures editing.None? ==> forall k :: k != "id" ==> Get(r[|items|], k) == Get(form, k)
  {
    match editing
    case Some(e) => UpdateById(items, IdOf(e), PlainRecord(form, IdOf(e)))
    case None => items + [PlainRecord(form, Num(newId))]
  }

  const GiftCardFields := {"code", "amount", "status", "expiryDate"}
  const CouponFields := {"code", "discount", "type", "minAmount", "status", "expiryDate", "storeId"}
  const StoreFields := {"name", "location", "manager", "phone", "status"}

  /** The keys whose value `handleEdit` turns into text. */
  const ConvertedFields := {"amount", "discount", "minAmount", "storeId"}

  /** The keys `handleEdit` writes into the form on each tab (any tab that is
      neither gift cards nor coupons is the stores tab). */
  function TabFields(tab: string): set<string>
  {
    if tab == GiftCardsTab then GiftCardFields
    else if tab == CouponsTab then CouponFields
    else StoreFields
  }

  /** `handleEdit` calls `.toString()` on the gift card's amount and on the
      coupon's discount and minimum amount, which must therefore be present. */
  predicate Editable(tab: string, item: Obj)
  {
    (tab == GiftCardsTab ==> HasText(Get(item, "amount"))) &&
    (tab == CouponsTab ==> HasText(Get(item, "discount")) && HasText(Get(item, "minAmount")))
  }

  /** `handleEdit`: the form is replaced wholesale by the tab's fields only;
      amounts and the store id become text, everything else is copied. */
  function EditForm(tab: string, item: Obj): (f: Obj)
    requires Editable(tab, item)
    ensures f.Keys == TabFields(tab)
    ensures forall k :: k in f && k !in ConvertedFields ==> f[k] == Get(item, k)
    ensures forall k :: k in f && k in ConvertedFields ==> f[k] == Str(FormText(Get(item, k)))
  {
    if tab == GiftCardsTab then
      map["code" := Get(item, "code"), "amount" := Str(FormText(Get(item, "amount"))),
          "status" := Get(item, "status"), "expiryDate" := Get(item, "expiryDate")]
    else if tab == CouponsTab then
      map["code" := Get(item, "code"), "discount" := Str(FormText(Get(item, "discount"))),
          "type" := Get(item, "type"), "minAmount" := Str(FormText(Get(item, "minAmount"))),
          "status" := Get(item, "status"), "expiryDate" := Get(item, "expiryDate"),
          "storeId" := Str(FormText(Get(item, "storeId")))]
    else
      map["name" := Get(item, "name"), "location" := Get(item, "location"),
          "manager" := Get(item, "manager"), "phone" := Get(item, "phone"),
          "status" := Get(item, "status")]
  }

  /** An edited and saved store holds only the store fields and its id: the
      gift-card and coupon keys of the full form, such as `code`, are gone. */
  lemma EditedStoreHoldsOnlyStoreFields(item: Obj)
    ensures PlainRecord(EditForm(StoresTab, item), IdOf(item)).Keys == StoreFields + {"id"}
    ensures "code" !in PlainRecord(EditForm(StoresTab, item), IdOf(item))
  {
    assert "code" !in StoreFields + {"id"};
  }

  /** An edited and saved gift card holds only the gift-card fields, its id
      and `usedBy`: no `discount`, no `storeId`. */
  lemma EditedGiftCardHoldsOnlyGiftCardFields(item: Obj)
    requires Editable(GiftCardsTab, item)
    ensures GiftCardRecord(EditForm(GiftCardsTab, item), IdOf(item), Get(item, "usedBy")).Keys
      == GiftCardFields + {"id", "usedBy"}
    ensures "discount" !in GiftCardRecord(EditForm(GiftCardsTab, item), IdOf(item), Get(item, "usedBy"))
  {
    assert "discount" !in GiftCardFields + {"id", "usedBy"};
  }

  /** An edited and saved coupon holds only the coupon fields and its id: no
      `amount`, no store `name`. */
  lemma EditedCouponHoldsOnlyCouponFields(item: Obj)
    requires Editable(CouponsTab, item)
    ensures PlainRecord(EditForm(CouponsTab, item), IdOf(item)).Keys == CouponFields + {"id"}
    ensures "amount" !in PlainRecord(EditForm(CouponsTab, item), IdOf(item))
  {
    assert "amount" !in CouponFields + {"id"};
  }

  /** A created record starts from the full form: a created store carries the
      gift-card and coupon keys too, such as `code: ''`. */
  lemma CreatedRecordsHoldAllFields(newId: int)
    ensures "code" in PlainRecord(BlankForm, Num(newId))
    ensures Get(PlainRecord(BlankForm, Num(newId)), "code") == Str("")
  {
  }

  // ---------------------------------------------------------------------------
  // The coupon's store (`getStoreName`) and the store picker

  /** `getStoreName` as written: the first store whose id is strictly equal
      (`===`) to the coupon's `storeId`, else 'All Stores'. */
  function StoreNameAsWritten(stores: seq<Obj>, storeId: Value): (r: Value)
    ensures (forall i :: 0 <= i < |stores| ==> IdOf(stores[i]) != storeId) ==> r == Str("All Stores")
    ensures forall i :: FirstMatch(stores, (s: Obj) => IdOf(s) == storeId, i) ==> r == Get(stores[i], "name")
  {
    match Find(stores, (s: Obj) => IdOf(s) == storeId)
    case Some(s) => Get(s, "name")
    case None => Str("All Stores")
  }

  /** With numeric store ids, as every store has, a store id held as text never
      matches strictly, so such a coupon always shows 'All Stores'. */
  lemma TextStoreIdShowsAllStores(stores: seq<Obj>, text: string)
    requires forall i :: 0 <= i < |stores| ==> IdOf(stores[i]).Num?
    ensures StoreNameAsWritten(stores, Str(text)) == Str("All Stores")
  {
    assert forall i :: 0 <= i < |stores| ==> IdOf(stores[i]) != Str(text);
  }

  /** Editing the first sample coupon and saving it untouched turns its store
      id 1 into the text "1", and its store column changes from 'Main Store'
      to 'All Stores'. */
  lemma EditedCouponLosesItsStore()
    ensures Editable(CouponsTab, SampleCoupons[0])
    ensures StoreNameAsWritten(SampleStores, Get(SampleCoupons[0], "storeId")) == Str("Main Store")
    ensures StoreNameAsWritten(SampleStores,
      Get(SubmitPlain(SampleCoupons, Some(SampleCoupons[0]), EditForm(CouponsTab, SampleCoupons[0]), 0)[0], "storeId"))
      == Str("All Stores")
  {
    FirstCouponEditForm();
    FirstStoreIsMain();
    var c := SampleCoupons[0];
    var f := EditForm(CouponsTab, c);
    var saved := SubmitPlain(SampleCoupons, Some(c), f, 0)[0];
    assert Get(saved, "storeId") == Get(f, "storeId");
    StoresHaveNumericIds();
    TextStoreIdShowsAllStores(SampleStores, "1");
  }

  lemma FirstCouponEditForm()
    ensures Get(SampleCoupons[0], "storeId") == Num(1)
    ensures Editable(CouponsTab, SampleCoupons[0])
    ensures Get(EditForm(CouponsTab, SampleCoupons[0]), "storeId") == Str("1")
  {
    var c := SampleCoupons[0];
    assert Get(c, "storeId") == Num(1);
    assert Get(c, "discount") == Num(20) && Get(c, "minAmount") == Num(100);
    assert "storeId" in CouponFields;
    assert FormText(Num(1)) == "1";
  }

  lemma FirstStoreIsMain()
    ensures StoreNameAsWritten(SampleStores, Num(1)) == Str("Main Store")
  {
    assert IdOf(SampleStores[0]) == Num(1);
    assert Get(SampleStores[0], "name") == Str("Main Store");
  }

  lemma StoresHaveNumericIds()
    ensures forall i :: 0 <= i < |SampleStores| ==> IdOf(SampleStores[i]).Num?
  {
    assert IdOf(SampleStores[0]) == Num(1);
    assert IdOf(SampleStores[1]) == Num(2);
    assert IdOf(SampleStores[2]) == Num(3);
  }

  /** `getStoreName` as intended: ids compared as the store picker compares
      them, by their text, with '' meaning 'All Stores'. */
  function StoreName(stores: seq<Obj>, storeId: Value): Value
  {
    if FormText(storeId) == "" then Str("All Stores")
    else
      match Find(stores, (s: Obj) => FormText(IdOf(s)) == FormText(storeId))
      case Some(s) => Get(s, "name")
      case None => Str("All Stores")
  }

  /** The intended lookup gives the store name for a numeric store id exactly
      as the strict lookup does, and editing a coupon no longer changes the
      store it shows. */
  lemma StoreNameAgreesAndSurvivesEdit(stores: seq<Obj>, n: int, coupon: Obj)
    requires forall i :: 0 <= i < |stores| ==> IdOf(stores[i]).Num?
    requires Editable(CouponsTab, coupon)
    ensures StoreName(stores, Num(n)) == StoreNameAsWritten(stores, Num(n))
    ensures StoreName(stores, Get(EditForm(CouponsTab, coupon), "storeId")) == StoreName(stores, Get(coupon, "storeId"))
  {
    forall i | 0 <= i < |stores|
      ensures (FormText(IdOf(stores[i])) == FormText(Num(n))) == (IdOf(stores[i]) == Num(n))
    {
      IntToStringInjective(IdOf(stores[i]).n, n);
    }
    FindAgrees(stores, (s: Obj) => FormText(IdOf(s)) == FormText(Num(n)), (s: Obj) => IdOf(s) == Num(n));
  }

  /** The coupon form's store picker: the stores whose status is 'active'. */
  function ActiveStores(stores: seq<Obj>): (r: seq<Obj>)
    ensures forall i :: 0 <= i < |r| ==> Get(r[i], "status") == Str("active")
  {
    Filter(stores, (s: Obj) => Get(s, "status") == Str("active"))
  }

  /** The picker offers exactly the active stores. */
  lemma ActiveStoresExactly(stores: seq<Obj>, s: Obj)
    ensures s in ActiveStores(stores) <==> s in stores && Get(s, "status") == Str("active")
  {
    FilterMember(stores, (x: Obj) => Get(x, "status") == Str("active"), s);
  }

  const SampleGiftCards: seq<Obj> := [
    map["id" := Num(1), "code" := Str("GIFT100"), "amount" := Num(100), "status" := Str("active"),
        "expiryDate" := Str("2024-12-31"), "usedBy" := Null],
    map["id" := Num(2), "code" := Str("GIFT500"), "amount" := Num(500), "status" := Str("used"),
        "expiryDate" := Str("2024-12-31"), "usedBy" := Str("John Doe")],
    map["id" := Num(3), "code" := Str("GIFT250"), "amount" := Num(250), "status" := Str("active"),
        "expiryDate" := Str("2024-12-31"), "usedBy" := Null]
  ]

  const SampleCoupons: seq<Obj> := [
    map["id" := Num(1), "code" := Str("SAVE20"), "discount" := Num(20), "type" := Str("percentage"),
        "minAmount" := Num(100), "status" := Str("active"), "expiryDate" := Str("2024-12-31"), "storeId" := Num(1)],
    map["id" := Num(2), "code" := Str("FLAT50"), "discount" := Num(50), "type" := Str("fixed"),
        "minAmount" := Num(200), "status" := Str("active"), "expiryDate" := Str("2024-12-31"), "storeId" := Num(2)],
    map["id" := Num(3), "code" := Str("DAIRY10"), "discount" := Num(10), "type" := Str("percentage"),
        "minAmount" := Num(50), "status" := Str("expired"), "expiryDate" := Str("2024-01-15"), "storeId" := Num(1)]
  ]

  const SampleStores: seq<Obj> := [
    map["id" := Num(1), "name" := Str("Main Store"), "location" := Str("Downtown"),
        "manager" := Str("John Smith"), "phone" := Str("9876543210"), "status" := Str("active")],
    map["id" := Num(2), "name" := Str("Branch Store"), "location" := Str("Mall Road"),
        "manager" := Str("Jane Doe"), "phone" := Str("9876543211"), "status" := Str("active")],
    map["id" := Num(3), "name" := Str("Outlet Store"), "location" := Str("City Center"),
        "manager" := Str("Bob Wilson"), "phone" := Str("9876543212"), "status" := Str("inactive")]
  ]

  /** The panel's state and handlers; `confirmed` is the dialog's answer and
      `newId` stands for `Date.now()`. */
  class StorePanel {
    var activeTab: string
    var giftCards: seq<Obj>
    var coupons: seq<Obj>
    var stores: seq<Obj>
    var showForm: bool
    var editingItem: Option<Obj>
    var formData: Obj

    constructor ()
      ensures activeTab == StoresTab && giftCards == SampleGiftCards && coupons == SampleCoupons
      ensures stores == SampleStores && !showForm && editingItem == None && formData == BlankForm
    {
      activeTab := StoresTab;
      giftCards := SampleGiftCards;
      coupons := SampleCoupons;
      stores := SampleStores;
      showForm := false;
      editingItem := None;
      formData := BlankForm;
    }

    /** A tab button. */
    method SelectTab(tab: string)
      modifies this`activeTab
      ensures activeTab == tab
    {
      activeTab := tab;
    }

    /** `handleSubmit`: nothing changes unless confirmed; then only the active
        tab's collection changes, and the form is reset. */
    method HandleSubmit(confirmed: bool, newId: int)
      modifies this`giftCards, this`coupons, this`stores, this`formData, this`editingItem, this`showForm
      ensures !confirmed ==> giftCards == old(giftCards) && coupons == old(coupons) && stores == old(stores)
      ensures !confirmed ==> formData == old(formData) && editingItem == old(editingItem) && showForm == old(showForm)
      ensures confirmed && activeTab == GiftCardsTab ==>
        giftCards == SubmitGiftCard(old(giftCards), old(editingItem), old(formData), newId) &&
        coupons == old(coupons) && stores == old(stores)
      ensures confirmed && activeTab == CouponsTab ==>
        coupons == SubmitPlain(old(coupons), old(editingItem), old(formData), newId) &&
        giftCards == old(giftCards) && stores == old(stores)
      ensures confirmed && activeTab != GiftCardsTab && activeTab != CouponsTab ==>
        stores == SubmitPlain(old(stores), old(editingItem), old(formData), newId) &&
        giftCards == old(giftCards) && coupons == old(coupons)
      ensures confirmed ==> formData == BlankForm && editingItem == None && !showForm
    {
      if confirmed {
        if activeTab == GiftCardsTab {
          giftCards := SubmitGiftCard(giftCards, editingItem, formData, newId);
        } else if activeTab == CouponsTab {
          coupons := SubmitPlain(coupons, editingItem, formData, newId);
        } else {
          stores := SubmitPlain(stores, editingItem, formData, newId);
        }
        ResetForm();
      }
    }

    /** `handleEdit`. */
    method HandleEdit(item: Obj)
      requires Editable(activeTab, item)
      modifies this`editingItem, this`formData, this`showForm
      ensures editingItem == Some(item) && formData == EditForm(activeTab, item) && showForm
    {
      editingItem := Some(item);
      formData := EditForm(activeTab, item);
      showForm := true;
    }

    /** The active tab's "Add New" button: it opens the form as it stands,
        so the form, the edit marker and the lists keep their values. */
    method ShowAddForm()
      modifies this`showForm
      ensures showForm
    {
      showForm := true;
    }

    /** `handleDelete`: only the active tab's collection loses the id. */
    method HandleDelete(confirmed: bool, itemId: Value)
      modifies this`giftCards, this`coupons, this`stores
      ensures !confirmed ==> giftCards == old(giftCards) && coupons == old(coupons) && stores == old(stores)
      ensures confirmed && activeTab == GiftCardsTab ==>
        giftCards == DeleteById(old(giftCards), itemId) && coupons == old(coupons) && stores == old(stores)
      ensures confirmed && activeTab == CouponsTab ==>
        coupons == DeleteById(old(coupons), itemId) && giftCards == old(giftCards) && stores == old(stores)
      ensures confirmed && activeTab != GiftCardsTab && activeTab != CouponsTab ==>
        stores == DeleteById(old(stores), itemId) && giftCards == old(giftCards) && coupons == old(coupons)
    {
      if confirmed {
        if activeTab == GiftCardsTab {
          giftCards := DeleteById(giftCards, itemId);
        } else if activeTab == CouponsTab {
          coupons := DeleteById(coupons, itemId);
        } else {
          stores := DeleteById(stores, itemId);
        }
      }
    }

    /** `resetForm`: the twelve-key blank form, no edit, form hidden. */
    method ResetForm()
      modifies this`formData, this`editingItem, this`showForm
      ensures formData == BlankForm && editingItem == None && !showForm
    {
      formData := BlankForm;
      editingItem := None;
      showForm := false;
    }

    /** The store column of a coupon row (`getStoreName(item.storeId)`): the
        name of the first store whose id is strictly equal to the coupon's,
        else 'All Stores'. */
    function StoreNameOf(storeId: Value): (r: Value)
      reads this
      ensures (forall i :: 0 <= i < |stores| ==> IdOf(stores[i]) != storeId) ==> r == Str("All Stores")
      ensures forall i :: FirstMatch(stores, (s: Obj) => IdOf(s) == storeId, i) ==> r == Get(stores[i], "name")
    {
      StoreNameAsWritten(stores, storeId)
    }

    /** The options of the coupon form's store picker. */
    function PickerStores(): seq<Obj>
      reads this
    {
      ActiveStores(stores)
    }
  }
}

=== FILE: text.dfy ===
/** Text helpers behind the CSV exports: `Array.prototype.join`, rendering of
    numbers in template literals, and a line/cell splitter used to state what
    a reader of the exported text gets back. */
module Text {

  /** `parts.join(sep)`. */
  function Join(parts: seq<string>, sep: string): string
  {
    if |parts| == 0 then ""
    else if |parts| == 1 then parts[0]
    else parts[0] + sep + Join(parts[1..], sep)
  }

  /** Cuts `s` at every occurrence of `c` (what a CSV reader does with a
      delimiter when there is no quoting). */
  function Split(s: string, c: char): (r: seq<string>)
    ensures |r| >= 1
  {
    if s == [] then [[]]
    else
      var rest := Split(s[1..], c);
      if s[0] == c then [[]] + rest else [[s[0]] + rest[0]] + rest[1..]
  }

  /** A piece without the delimiter is one cell. */
  lemma {:induction false} SplitNoDelimiter(p: string, c: char)
    requires c !in p
    ensures Split(p, c) == [p]
  {
    if p != [] {
      SplitNoDelimiter(p[1..], c);
      assert [p[0]] + p[1..] == p;
    }
  }

  /** Splitting at the first delimiter. */
  lemma {:induction false} SplitAtDelimiter(p: string, c: char, s: string)
    requires c !in p
    ensures Split(p + [c] + s, c) == [p] + Split(s, c)
  {
    if p == [] {
      assert p + [c] + s == [c] + s;
      assert ([c] + s)[1..] == s;
    } else {
      var t := p + [c] + s;
      assert t[0] == p[0];
      assert t[1..] == p[1..] + [c] + s;
      SplitAtDelimiter(p[1..], c, s);
      assert [p[0]] + p[1..] == p;
    }
  }

  /** Joining with a one-character delimiter that occurs in no part is undone
      by splitting at that character. */
  lemma {:induction false} SplitJoin(parts: seq<string>, c: char)
    requires |parts| >= 1
    requires forall i :: 0 <= i < |parts| ==> c !in parts[i]
    ensures Split(Join(parts, [c]), c) == parts
  {
    if |parts| == 1 {
      SplitNoDelimiter(parts[0], c);
    } else {
      SplitJoin(parts[1..], c);
      SplitAtDelimiter(parts[0], c, Join(parts[1..], [c]));
      assert parts == [parts[0]] + parts[1..];
    }
  }

  /** Number of occurrences of `c` in `s`. */
  function Occurrences(s: string, c: char): nat
  {
    if s == [] then 0 else (if s[0] == c then 1 else 0) + Occurrences(s[1..], c)
  }

  /** Without escaping, a text with k delimiters always splits into k + 1 cells:
      a delimiter inside a field adds a column. */
  lemma {:induction false} SplitCount(s: string, c: char)
    ensures |Split(s, c)| == Occurrences(s, c) + 1
  {
    if s != [] {
      SplitCount(s[1..], c);
    }
  }

  /** `c` occurs nowhere in a join of pieces and a separator that lack it. */
  lemma {:induction false} JoinAvoids(parts: seq<string>, sep: string, c: char)
    requires c !in sep
    requires forall i :: 0 <= i < |parts| ==> c !in parts[i]
    ensures c !in Join(parts, sep)
  {
    if |parts| > 1 {
      JoinAvoids(parts[1..], sep, c);
    }
  }

  function DigitChar(d: nat): (c: char)
    requires d < 10
    ensures '0' <= c <= '9'
  {
    "0123456789"[d]
  }

  ghost predicate AllDigits(s: string)
  {
    forall i :: 0 <= i < |s| ==> '0' <= s[i] <= '9'
  }

  /** Decimal rendering of a natural number, as a template literal prints it. */
  function NatToString(n: nat): (s: string)
    ensures |s| >= 1
    ensures AllDigits(s)
    ensures n >= 10 ==> s[0] != '0'
  {
    if n < 10 then [DigitChar(n)] else NatToString(n / 10) + [DigitChar(n % 10)]
  }

  /** Decimal rendering of an integer: a minus sign, then the digits. */
  function IntToString(i: int): (s: string)
    ensures |s| >= 1
    ensures forall k :: 0 <= k < |s| ==> s[k] == '-' || '0' <= s[k] <= '9'
    ensures i < 0 <==> s[0] == '-'
  {
    if i < 0 then "-" + NatToString(-i) else NatToString(i)
  }

  lemma DigitCharInjective(d: nat, e: nat)
    requires d < 10 && e < 10
    ensures DigitChar(d) == DigitChar(e) ==> d == e
  {
  }

  /** Two-digit and longer numbers render with two characters or more. */
  lemma NatToStringLength(n: nat)
    ensures n >= 10 ==> |NatToString(n)| >= 2
  {
  }

  /** Different numbers render differently. */
  lemma {:induction false} NatToStringInjective(n: nat, m: nat)
    ensures NatToString(n) == NatToString(m) ==> n == m
  {
    NatToStringLength(n);
    NatToStringLength(m);
    if n >= 10 && m >= 10 && NatToString(n) == NatToString(m) {
      var s, t := NatToString(n / 10), NatToString(m / 10);
      assert NatToString(n) == s + [DigitChar(n % 10)];
      assert NatToString(m) == t + [DigitChar(m % 10)];
      assert s == NatToString(n)[..|s|] && t == NatToString(m)[..|t|];
      DigitCharInjective(n % 10, m % 10);
      NatToStringInjective(n / 10, m / 10);
    } else if n < 10 && m < 10 {
      DigitCharInjective(n, m);
    }
  }

  /** Different integers render differently. */
  lemma IntToStringInjective(i: int, j: int)
    ensures IntToString(i) == IntToString(j) <==> i == j
  {
    if IntToString(i) == IntToString(j) {
      if i < 0 && j < 0 {
        assert NatToString(-i) == IntToString(i)[1..] && NatToString(-j) == IntToString(j)[1..];
        NatToStringInjective(-i, -j);
      } else if i >= 0 && j >= 0 {
        NatToStringInjective(i, j);
      }
    }
  }

  /** Digits only, so the rendering of a number never contains a CSV delimiter. */
  lemma IntToStringIsCsvSafe(i: int)
    ensures ',' !in IntToString(i) && '\n' !in IntToString(i)
  {
    var s := IntToString(i);
    assert forall k :: 0 <= k < |s| ==> s[k] != ',' && s[k] != '\n';
  }

  /** `"<header>\n" + rows.join("\n")`, the layout of the Orders, Users and
      Products exports. */
  function CsvDocument(header: string, rows: seq<string>): string
  {
    header + "\n" + Join(rows, "\n")
  }

  /** When no header or row contains a line break, reading the export line by
      line gives back the header followed by the rows; with no rows the text ends
      in a line break and the reader sees one empty line. */
  lemma CsvDocumentLines(header: string, rows: seq<string>)
    requires '\n' !in header
    requires forall i :: 0 <= i < |rows| ==> '\n' !in rows[i]
    ensures |rows| >= 1 ==> Split(CsvDocument(header, rows), '\n') == [header] + rows
    ensures |rows| == 0 ==> Split(CsvDocument(header, rows), '\n') == [header, ""]
  {
    SplitAtDelimiter(header, '\n', Join(rows, "\n"));
    if |rows| >= 1 {
      SplitJoin(rows, '\n');
    }
  }

  /** A comma-joined row whose fields hold no comma reads back as those fields. */
  lemma CsvRowCells(fields: seq<string>)
    requires |fields| >= 1
    requires forall i :: 0 <= i < |fields| ==> ',' !in fields[i]
    ensures Split(Join(fields, ","), ',') == fields
  {
    SplitJoin(fields, ',');
  }

  /** A text that can sit in a CSV cell unquoted. */
  ghost predicate CellSafe(t: string)
  {
    ',' !in t && '\n' !in t
  }

  /** One comma-joined line per row of cells. */
  function CsvLines(cells: seq<seq<string>>): (rows: seq<string>)
    ensures |rows| == |cells|
    ensures forall i :: 0 <= i < |cells| ==> rows[i] == Join(cells[i], ",")
  {
    seq(|cells|, i requires 0 <= i < |cells| => Join(cells[i], ","))
  }

  /** A table: the column names on the header line, then one line per row. */
  function CsvTable(columns: seq<string>, cells: seq<seq<string>>): string
  {
    CsvDocument(Join(columns, ","), CsvLines(cells))
  }

  /** A line of safe cells is one line and reads back as those cells. */
  lemma SafeLine(cells: seq<string>)
    requires |cells| >= 1
    requires forall k :: 0 <= k < |cells| ==> CellSafe(cells[k])
    ensures '\n' !in Join(cells, ",")
    ensures Split(Join(cells, ","), ',') == cells
  {
    JoinAvoids(cells, ",", '\n');
    CsvRowCells(cells);
  }

  /** Read back line by line and cell by cell, a table of safe cells gives the
      column names and then each row's cells, in order. */
  lemma CsvTableReadsBack(columns: seq<string>, cells: seq<seq<string>>)
    requires |columns| >= 1 && |cells| >= 1
    requires forall k :: 0 <= k < |columns| ==> CellSafe(columns[k])
    requires forall i, k :: 0 <= i < |cells| && 0 <= k < |cells[i]| ==> CellSafe(cells[i][k])
    requires forall i :: 0 <= i < |cells| ==> |cells[i]| >= 1
    ensures |Split(CsvTable(columns, cells), '\n')| == |cells| + 1
    ensures Split(Split(CsvTable(columns, cells), '\n')[0], ',') == columns
    ensures forall i :: 0 <= i < |cells| ==>
      Split(Split(CsvTable(columns, cells), '\n')[i + 1], ',') == cells[i]
  {
    var rows := CsvLines(cells);
    SafeLine(columns);
    forall i | 0 <= i < |cells| ensures '\n' !in rows[i] && Split(rows[i], ',') == cells[i] {
      SafeLine(cells[i]);
    }
    CsvDocumentLines(Join(columns, ","), rows);
  }
}

=== FILE: users.dfy ===
/** The Users panel (src/components/Users.jsx): the user list comes from the
    server (or eight sample users), create, update and delete go through the
    server and then reload the list, and block/unblock flips a user's status
    locally before the request is sent. */
module Users {
  import opened Collections
  import opened Text
  import Paging

  /** A user as the server sends it; `mobile` may be absent. */
  datatype User = User(
    id: string, name: string, email: string, mobile: Option<string>,
    role: string, status: string, createdAt: string)

  datatype UserForm = UserForm(name: string, email: string, mobile: string, role: string, status: string)

  const BlankForm := UserForm("", "", "", "user", "active")

  /** What a `GET /admin/users` produced: the request failed, or the data. */
  datatype FetchOutcome = Failed | Loaded(data: seq<User>)

  /** The requests the panel sends. */
  datatype Request =
    | PutUser(id: string, body: UserForm)
    | PostUser(body: UserForm)
    | DeleteUser(id: string)
    | PutStatus(id: string, status: string)

  /** The save request: a PUT of the form to the edited user's id, or a POST. */
  function SaveRequest(editing: Option<User>, form: UserForm): (r: Request)
    ensures editing.Some? <==> r.PutUser?
    ensures r.PutUser? ==> r.id == editing.value.id && r.body == form
    ensures r.PostUser? ==> r.body == form
  {
    match editing
    case Some(u) => PutUser(u.id, form)
    case None => PostUser(form)
  }

  /** `fetchUsers`: the server's list when it is non-empty, otherwise (and
      when the request fails) the eight sample users. */
  function ChooseUsers(outcome: FetchOutcome): (r: seq<User>)
    ensures outcome.Loaded? && |outcome.data| > 0 ==> r == outcome.data
    ensures outcome.Failed? || |outcome.data| == 0 ==> r == SampleUsers
    ensures |r| > 0
  {
    if outcome.Loaded? && |outcome.data| > 0 then outcome.data else SampleUsers
  }

  /** The status the block button sets: 'inactive' for an active user, 'active' otherwise. */
  function Toggle(status: string): (r: string)
    ensures r == "inactive" <==> status == "active"
    ensures r != "inactive" ==> r == "active"
  {
    if status == "active" then "inactive" else "active"
  }

  /** Toggling twice restores 'active' and 'inactive'; any other status
      becomes 'inactive' after two toggles. */
  lemma ToggleTwice(status: string)
    ensures status == "active" || status == "inactive" ==> Toggle(Toggle(status)) == status
    ensures status != "active" && status != "inactive" ==> Toggle(Toggle(status)) == "inactive"
  {
  }

  /** `users.map(user => user._id === id ? { ...user, status } : user)`. */
  function SetStatus(users: seq<User>, id: string, status: string): (r: seq<User>)
    ensures |r| == |users|
    ensures forall i :: 0 <= i < |users| ==>
      r[i] == if users[i].id == id then users[i].(status := status) else users[i]
  {
    if users == [] then []
    else [if users[0].id == id then users[0].(status := status) else users[0]] + SetStatus(users[1..], id, status)
  }

  /** Blocking and then unblocking a user (or the reverse) gives back the list. */
  lemma BlockThenUnblockRestores(users: seq<User>, id: string, status: string)
    requires status == "active" || status == "inactive"
    requires forall i :: 0 <= i < |users| && users[i].id == id ==> users[i].status == status
    ensures SetStatus(SetStatus(users, id, Toggle(status)), id, Toggle(Toggle(status))) == users
  {
    var r := SetStatus(SetStatus(users, id, Toggle(status)), id, Toggle(Toggle(status)));
    forall i | 0 <= i < |users| ensures r[i] == users[i] {
    }
  }

  /** `handleEdit`: the form takes the user's fields, a missing mobile as ''. */
  function EditForm(u: User): (f: UserForm)
    ensures f.name == u.name && f.email == u.email && f.role == u.role && f.status == u.status
    ensures u.mobile.None? ==> f.mobile == ""
    ensures u.mobile.Some? ==> f.mobile == u.mobile.value
  {
    UserForm(u.name, u.email, match u.mobile case Some(m) => m case None => "", u.role, u.status)
  }

  // ---------------------------------------------------------------------------
  // CSV export (`downloadExcel`)

  const UsersCsvColumns := ["Name", "Email", "Role", "Status", "Created"]

  /** One user's cells; `localDate` stands for
      `new Date(createdAt).toLocaleDateString()`. */
  function UserCsvCells(u: User, localDate: string -> string): (cells: seq<string>)
    ensures |cells| == |UsersCsvColumns|
  {
    [u.name, u.email, u.role, u.status, localDate(u.createdAt)]
  }

  function UsersCsvRows(users: seq<User>, localDate: string -> string): (rows: seq<seq<string>>)
    ensures |rows| == |users|
    ensures forall i :: 0 <= i < |users| ==> rows[i] == UserCsvCells(users[i], localDate)
  {
    seq(|users|, i requires 0 <= i < |users| => UserCsvCells(users[i], localDate))
  }

  /** The export: the header line, then one line per user, in list order. */
  function UsersCsv(users: seq<User>, localDate: string -> string): string
  {
    CsvTable(UsersCsvColumns, UsersCsvRows(users, localDate))
  }

  lemma UsersCsvColumnsSafe()
    ensures forall k :: 0 <= k < |UsersCsvColumns| ==> CellSafe(UsersCsvColumns[k])
  {
  }

  /** Read back, the export of users whose fields hold no comma or line break
      gives the header `Name,Email,Role,Status,Created` and then each user's
      name, email, role, status and local creation date, in list order. */
  lemma UsersCsvReadsBack(users: seq<User>, localDate: string -> string)
    requires |users| >= 1
    requires forall i :: 0 <= i < |users| ==>
      CellSafe(users[i].name) && CellSafe(users[i].email) && CellSafe(users[i].role) &&
      CellSafe(users[i].status) && CellSafe(localDate(users[i].createdAt))
    ensures |Split(UsersCsv(users, localDate), '\n')| == |users| + 1
    ensures Split(Split(UsersCsv(users, localDate), '\n')[0], ',') == UsersCsvColumns
    ensures forall i :: 0 <= i < |users| ==>
      Split(Split(UsersCsv(users, localDate), '\n')[i + 1], ',') == UserCsvCells(users[i], localDate)
  {
    var cells := UsersCsvRows(users, localDate);
    UsersCsvColumnsSafe();
    CsvTableReadsBack(UsersCsvColumns, cells);
  }

  const SampleUsers := [
    User("1", "John Doe", "john.doe@example.com", Some("9876543210"), "user", "active", "2024-01-15T10:30:00Z"),
    User("2", "Jane Smith", "jane.smith@example.com", Some("9876543211"), "admin", "active", "2024-01-10T14:20:00Z"),
    User("3", "Mike Johnson", "mike.johnson@example.com", Some("9876543212"), "user", "inactive", "2024-01-08T09:15:00Z"),
    User("4", "Sarah Wilson", "sarah.wilson@example.com", Some("9876543213"), "user", "active", "2024-01-05T16:45:00Z"),
    User("5", "David Brown", "david.brown@example.com", Some("9876543214"), "moderator", "active", "2024-01-03T11:30:00Z"),
    User("6", "Lisa Davis", "lisa.davis@example.com", Some("9876543215"), "user", "inactive", "2023-12-28T13:20:00Z"),
    User("7", "Robert Miller", "robert.miller@example.com", Some("9876543216"), "user", "active", "2023-12-25T08:10:00Z"),
    User("8", "Emily Garcia", "emily.garcia@example.com", Some("9876543217"), "admin", "active", "2023-12-20T15:35:00Z")
  ]

  /** The panel's state and handlers. `confirmed` is the dialog's answer,
      `apiOk` whether the request succeeded, and `reloaded` what the reload
      that follows a successful save or delete fetched. `requests` records the
      requests sent, and `notified` counts the calls of the optional
      `onDataChange` callback, present when `hasListener`. */
  class UsersPanel {
    var users: seq<User>
    var loading: bool
    var editingUser: Option<User>
    var formData: UserForm
    var currentPage: int
    var requests: seq<Request>
    var notified: nat
    const hasListener: bool

    constructor (listener: bool)
      ensures users == [] && loading && editingUser == None && formData == BlankForm
      ensures currentPage == 1 && requests == [] && notified == 0 && hasListener == listener
    {
      users := [];
      loading := true;
      editingUser := None;
      formData := BlankForm;
      currentPage := 1;
      requests := [];
      notified := 0;
      hasListener := listener;
    }

    /** `fetchUsers`: the chosen list, and loading is over. */
    method FetchUsers(outcome: FetchOutcome)
      modifies this`users, this`loading
      ensures users == ChooseUsers(outcome) && !loading
    {
      users := ChooseUsers(outcome);
      loading := false;
    }

    /** Calls `onDataChange` when it was given. */
    method Notify()
      modifies this`notified
      ensures notified == old(notified) + (if hasListener then 1 else 0)
    {
      if hasListener {
        notified := notified + 1;
      }
    }

    /** `handleSubmit`: after confirmation, a PUT of the form for the edited
        user or a POST of the form. On success the list is reloaded, the
        listener told and the form reset; on failure the list and the form stay. */
    method HandleSubmit(confirmed: bool, apiOk: bool, reloaded: FetchOutcome)
      modifies this`users, this`loading, this`formData, this`editingUser, this`requests, this`notified
      ensures !confirmed ==> users == old(users) && requests == old(requests) && notified == old(notified)
      ensures !confirmed || !apiOk ==> users == old(users) && loading == old(loading)
      ensures !confirmed || !apiOk ==> formData == old(formData) && editingUser == old(editingUser)
      ensures confirmed ==> requests == old(requests) + [SaveRequest(old(editingUser), old(formData))]
      ensures confirmed && apiOk ==> users == ChooseUsers(reloaded) && !loading
      ensures confirmed && apiOk ==> formData == BlankForm && editingUser == None
      ensures confirmed && apiOk ==> notified == old(notified) + (if hasListener then 1 else 0)
      ensures confirmed && !apiOk ==> notified == old(notified)
    {
      if confirmed {
        requests := requests + [SaveRequest(editingUser, formData)];
        if apiOk {
          FetchUsers(reloaded);
          Notify();
          ResetForm();
        }
      }
    }

    /** `handleEdit`. */
    method HandleEdit(user: User)
      modifies this`editingUser, this`formData
      ensures editingUser == Some(user) && formData == EditForm(user)
    {
      editingUser := Some(user);
      formData := EditForm(user);
    }

    /** `handleDelete`: after confirmation, a DELETE; on success the list is
        reloaded and the listener told, on failure nothing changes. */
    method HandleDelete(confirmed: bool, apiOk: bool, userId: string, reloaded: FetchOutcome)
      modifies this`users, this`loading, this`requests, this`notified
      ensures !confirmed ==> requests == old(requests)
      ensures confirmed ==> requests == old(requests) + [DeleteUser(userId)]
      ensures !confirmed || !apiOk ==> users == old(users) && loading == old(loading) && notified == old(notified)
      ensures confirmed && apiOk ==> users == ChooseUsers(reloaded) && !loading
      ensures confirmed && apiOk ==> notified == old(notified) + (if hasListener then 1 else 0)
    {
      if confirmed {
        requests := requests + [DeleteUser(userId)];
        if apiOk {
          FetchUsers(reloaded);
          Notify();
        }
      }
    }

    /** `handleBlock`: after confirmation the status flips locally first, then
        the request is sent; success and failure end alike, so the local change
        stays and the listener is told either way. */
    method HandleBlock(confirmed: bool, apiOk: bool, userId: string, currentStatus: string)
      modifies this`users, this`requests, this`notified
      ensures !confirmed ==> users == old(users) && requests == old(requests) && notified == old(notified)
      ensures confirmed ==> users == SetStatus(old(users), userId, Toggle(currentStatus))
      ensures confirmed ==> requests == old(requests) + [PutStatus(userId, Toggle(currentStatus))]
      ensures confirmed ==> notified == old(notified) + (if hasListener then 1 else 0)
    {
      if confirmed {
        var newStatus := Toggle(currentStatus);
        users := SetStatus(users, userId, newStatus);
        requests := requests + [PutStatus(userId, newStatus)];
        if apiOk {
          Notify();
        } else {
          Notify();
        }
      }
    }

    /** `resetForm`. */
    method ResetForm()
      modifies this`formData, this`editingUser
      ensures formData == BlankForm && editingUser == None
    {
      formData := BlankForm;
      editingUser := None;
    }

    function CurrentUsers(): seq<User>
      reads this
    {
      Paging.PageOf(users, currentPage)
    }

    method PreviousPage()
      modifies this`currentPage
      ensures currentPage == Paging.PreviousPage(old(currentPage))
    {
      currentPage := Paging.PreviousPage(currentPage);
    }

    /** The Next button, as written: `Math.min(prev + 1, totalPages)`. */
    method NextPage()
      modifies this`currentPage
      ensures currentPage == Paging.NextPageAsWritten(old(currentPage), Paging.TotalPages(|users|))
    {
      currentPage := Paging.NextPageAsWritten(currentPage, Paging.TotalPages(|users|));
    }
  }
}
